=== FILE: README.md ===
# mi-app-backend request decisions in Dafny

This project models the request-decision logic of the mi-app-backend Express/Vercel backend.
That logic sits on top of MongoDB (Mongoose), Cloudinary, bcrypt and jsonwebtoken, and decides
three things for each request: what status and body to answer, whether to call the media
provider (and with which options), and whether to write a record.

Every library call is an oracle input. The model receives the outcome the handler would observe:
- the token verifier's verdict (`Oracles.Verdict`);
- a lookup's document, `null` or rejection (`Oracles.Lookup`);
- a write's acknowledgement or rejection (`Oracles.Write`);
- a password comparison (`Oracles.Comparison`);
- the provider's upload result or error (`Oracles.Upload`);
- the form parser's outcome (`MediaApi.Form`).

Request fields are JavaScript values (`Js.JsValue`), so the model can tell apart what `||`
treats as absent (`Js.Truthy`) and what `??` treats as absent (`Js.Nullish`). `split` keeps
empty segments (`Js.Split`), and an out-of-range index reads as `undefined` (`Js.At`).

A reply (`Http.Reply`) is either one JSON response (status, optional `Allow` header, body) or
`Unanswered`. `Unanswered` stands for an exception that escapes an async callback or an awaited
call without a `try`; the handler then writes no response.

Modules, following the repository's layout:

| module | models |
|---|---|
| `Js` | the JavaScript value and string semantics the handlers rely on |
| `Http` | `api/_utils.ts` / `api/_utils.js`: `sendJSON`, `methodGuard` |
| `Bearer` | `getBearer` in `lib/jwt.ts`, `lib/jwt.js`, `dist/lib/jwt.js` |
| `AuthGuard` | `requireAuth` in `api/_authGuard.ts` and `dist/api/_authGuard.js` |
| `DbCache` | the `dbConnect` cache in `lib/db.ts` and `dist/lib/db.js` |
| `MediaApi`, `MediaLaws` | the media handler in `api/media/index.ts` and its compiled variant `dist/api/media/index.js` |
| `Express`, `ExpressServer` | `index.js`: CORS, `authMiddleware`, upload, register, owner check |
| `MediaRoutes` | `routes/media.routes.js` |
| `Users`, `AuthApi` | `api/auth/login.ts`, `api/auth/login.js`, `api/auth/signup.ts` |
| `ProfileApi` | `api/user/profile.ts` and `dist/api/user/profile.js` |
| `UserController` | `controllers/userController.js` |

Identical files (`lib/jwt.ts`/`lib/jwt.js`/`dist/lib/jwt.js`, `api/_utils.ts`/`.js`,
`api/_authGuard.ts`/`dist/api/_authGuard.js`, `lib/db.ts`/`dist/lib/db.js`,
`api/auth/login.ts`/`.js`) are modelled once; a row's third column names the copies its member also covers.

## Model

| member | source | states |
|---|---|---|
| Js.OrChain | api/media/index.ts:27 | `a || b || ...` is truthy iff some operand is; it is then the first truthy operand, otherwise the last operand |
| Js.JoinSplit | index.js:211 | joining the segments of `s.split(sep)` with `sep` gives back `s`: nothing is lost, empty segments included |
| Js.SplitJoin | index.js:211 | splitting the join of separator-free parts gives back exactly those parts |
| Js.SplitLength | index.js:211 | `s.split(sep)` has one more segment than `s` has separators |
| Js.SplitSegmentsFree | lib/jwt.ts:33 | no segment of a split contains the separator |
| Js.HasSecondSegment | api/media/index.ts:76 | `split(sep)[1]` exists exactly when the string contains the separator |
| Js.SecondSegment | api/media/index.ts:76 | `split(sep)[1]` is the separator-free text right after the first separator, up to the next one or the end |
| Js.SplitOfShape | api/media/index.ts:76 | conversely, for `a + sep + b + rest` with separator-free `a` and `b`, the first two segments are `a` and `b` |
| Js.TrimIsInfix | index.js:211 | `trim()` returns an infix of its input, removes only white space, and leaves none at either end |
| Js.ToLower | lib/jwt.ts:34 | lower-casing keeps the length and maps each character on its own |
| Http.MethodGuard | api/_utils.ts:7-15 | the guard lets a request pass iff its method (absent read as "") is in the allow list; a refusal is exactly 405 with `Allow` = the list and `{error:"Method Not Allowed"}`; `api/_utils.js` is identical |
| Http.AbsentMethodIsEmpty | api/_utils.ts:8 | an absent method behaves as the empty string |
| Http.MethodGuardMembership | api/_utils.ts:9-14 | with no "" in the list, a method passes iff listed, and a refused one gets the 405 reply |
| Bearer.TokenOf | lib/jwt.ts:33-35 | an extracted token is non-empty and contains no space |
| Bearer.GetBearer | lib/jwt.ts:30-36 | a falsy header gives no token; any token returned is non-empty and space-free; `lib/jwt.js` and `dist/lib/jwt.js` are identical |
| Bearer.TokenOfCharacterized | lib/jwt.ts:33-35 | a header yields `t` iff it reads scheme, one space, `t`, then nothing or a space and anything, where the scheme is "bearer" in any case and `t` is non-empty and space-free |
| Bearer.TokenOfShape | lib/jwt.ts:33-35 | every accepted header has that shape, with the returned token in the middle |
| Bearer.TokenOfAccepts | lib/jwt.ts:33-35 | every header of that shape yields its token |
| Bearer.AcceptedHeader | lib/jwt.ts:31-35 | such a header sent as `authorization` yields its token |
| Bearer.SingleHeader | lib/jwt.ts:31-32 | with only `authorization` present, the empty value gives no token and any other value is parsed |
| Bearer.LowerSpellings | lib/jwt.ts:34 | "Bearer", "bearer" and "BEARER" are the bearer scheme |
| Bearer.BasicIsNotBearer | lib/jwt.ts:34 | "Basic" is not the bearer scheme |
| Bearer.SchemeThenToken | lib/jwt.ts:30-36 | any space-free scheme that lower-cases to "bearer" ("bearer", "BEARER", ... as section 2.1 of RFC 7235 has it), one space and a non-empty space-free token yields that token |
| Bearer.BearerRoundTrip | lib/jwt.ts:33-35 | `"Bearer " + t` yields `t` for every non-empty space-free `t` |
| Bearer.TrailingSegmentsIgnored | lib/jwt.ts:33 | "Bearer t tail" yields `t`: later segments are dropped |
| Bearer.RejectsMissingToken | lib/jwt.ts:32-34 | no header, "Bearer" and "Bearer " yield no token |
| Bearer.RejectsDoubleSpace | lib/jwt.ts:33-34 | "Bearer  " followed by anything yields no token, although section 2.1 of RFC 6750 allows several spaces |
| Bearer.RejectsOtherScheme | lib/jwt.ts:34 | "Basic " followed by anything yields no token |
| Bearer.NoSpaceRejected | lib/jwt.ts:33-34 | a header without a space yields no token |
| Bearer.TrailingSpaceRejected | lib/jwt.ts:33-34 | a space-free scheme followed by a single space yields no token |
| Bearer.EmptyTokenRejected | lib/jwt.ts:33-34 | a space-free scheme followed by two spaces yields no token, whatever comes after |
| Bearer.OtherSchemeRejected | lib/jwt.ts:34 | a first segment that is not "bearer" in any case yields no token, whatever follows |
| Bearer.HeaderKeyPriority | lib/jwt.ts:31 | a non-empty `authorization` wins over `Authorization`; an empty one falls through to it |
| AuthGuard.RequireAuth | api/_authGuard.ts:4-17 | a denial is always 401; "No autenticado" iff there is no bearer token; "Token inválido" iff the token fails verification; admitted iff it verifies, with `userId` = the payload's `sub`; `dist/api/_authGuard.js` is identical |
| AuthGuard.NoTokenNoVerification | api/_authGuard.ts:5-9 | without a token the verifier is never consulted |
| AuthGuard.OnlyExtractedTokenVerified | api/_authGuard.ts:10-12 | the outcome depends on the verifier only through its verdict on the extracted token |
| AuthGuard.ValidBearerAdmits | api/_authGuard.ts:10-12 | a well-formed bearer header whose token verifies admits the payload's subject |
| DbCache.Call | lib/db.ts:10-17 | a cached connection is returned with no connect; connect happens iff neither connection nor promise is cached; the promise is kept; `conn` is set only on success; `dist/lib/db.js` is identical |
| DbCache.RejectionIsSticky | lib/db.ts:12-15 | once the stored promise has rejected, every call re-fails with it and nothing changes |
| DbCache.Replay | lib/db.ts:10-17 | over any sequence of calls, connect runs at most once, and only if there is a call; every call settles like the first connect; afterwards the first outcome is stored, and `conn` is set iff it succeeded |
| DbCache.RunConnectsAtMostOnce | lib/db.ts:12-14 | from any reachable state, connect runs at most once; with a promise cached it never runs, the state is unchanged and every call gets the cached outcome |
| MediaApi.FirstFile | api/media/index.ts:27 | the chosen file is truthy iff some alias holds one, and it is then the first alias that does |
| MediaApi.ReadDataUrl | api/media/index.ts:73-77 | a payload is read iff `dataUrl` is a string starting with "data:" that contains a comma; it is the comma-free segment after the first comma; a "data:" string without comma and a non-string value are told apart |
| MediaApi.ChooseSource | api/media/index.ts:27-28 | a file wins; else a truthy `url`; else a well-formed "data:" `dataUrl`; else none (400), with the no-comma and non-string `dataUrl` cases separate (lines 54-55, 73-77, 101) |
| MediaApi.SourceOptions | api/media/index.ts:23-24 | the folder is "media"; `resource_type` is the field when truthy, else "auto", unvalidated; the preset is the field, else the environment default, sent as `undefined` when falsy (lines 31, 57, 79) |
| MediaApi.DistOptions | dist/api/media/index.js:21-30 | the compiled build unwraps arrays to their first element, falls back with `??` for the preset, and always sends one of raw/auto/image/video, substituting "auto" for anything else |
| MediaApi.Ingest | api/media/index.ts:28-101 | the provider is called iff there is a source, directly for a URL and by streaming otherwise; a record exists iff there is a source, the upload succeeded and the store acknowledged; 201 only then; no source is 400 "Envía 'file' multipart, 'url' o 'dataUrl'" with no call (line 101); a "data:" URL without comma is 500 with `Buffer.from`'s error and no call (lines 76-77, 95-96); a non-string `dataUrl` leaves the request unanswered |
| MediaApi.Handle | api/media/index.ts:9-106 | GET is answered 200 with the documents iff the listing query resolves, and left unanswered when it rejects (line 12 awaits it outside any `try`); a form is parsed only after auth was checked; a provider call only after parsing and always into folder "media"; a record only after a successful upload |
| MediaLaws.OtherMethodsRejected | api/media/index.ts:105 | every method other than GET and POST gets 405 with `Allow: GET, POST` and does nothing else |
| MediaLaws.GetIgnoresAuthAndForm | api/media/index.ts:11-14 | GET gives 200 with the listing, or no reply when the query rejects, and never consults token, form, provider or store |
| MediaLaws.FailedAuthStops | api/media/index.ts:16-17 | a POST that fails auth gets the guard's 401 with no parse, no provider call and no record |
| MediaLaws.MalformedFormRejected | api/media/index.ts:20-21 | a form-parse error gives 400 "Formulario inválido" and no provider call |
| MediaLaws.RecordIffUploaded | api/media/index.ts:33-42 | a record exists iff an admitted POST with a parsed form and a source is uploaded and stored; it copies the result, `createdBy` is the caller, the reply is 201 `{item, upload}` (lines 57-66) |
| MediaLaws.ProviderErrorNoRecord | api/media/index.ts:33 | a provider error never leaves a record and, once the provider was called, gives 500 with a non-empty message (lines 67-68) |
| MediaLaws.NoSourceNoUpload | api/media/index.ts:72-101 | with no file, no `url`, and a `dataUrl` that is absent or a string not starting with "data:", the reply is 400 and the provider is not called |
| MediaLaws.DataUrlWithoutCommaFails | api/media/index.ts:72-77 | for any form with no file and no `url`, a "data:" `dataUrl` without comma gives 500 with `Buffer.from`'s error before any stream is opened (lines 95-96) |
| MediaLaws.PrecedenceReachesProvider | api/media/index.ts:27-31 | the provider sees the first file, else the `url` (direct upload), else the inline payload (streamed), always with the build's options and folder "media" (lines 54-57, 73-79) |
| MediaLaws.StoreFailureAfterUpload | api/media/index.ts:34-42 | a store failure after a streamed upload leaves the request unanswered; after a URL upload it is 500 (lines 58-68); neither leaves a record |
| MediaLaws.BuildsDifferOnlyInOptions | dist/api/media/index.js:32-102 | the two builds give the same replies, records and provider calls except for the options passed |
| MediaLaws.BuildsAgreeOnPlainFields | dist/api/media/index.js:21-30 | with a preset absent or non-empty and a resource type absent or allowed, both builds pass the same options |
| MediaLaws.ResourceTypeCoercion | dist/api/media/index.js:24-30 | "bogus" and "" become "auto", "video" passes, an array gives its first element, `[]` gives "auto"; the source build passes "bogus" on (api/media/index.ts:24) |
| MediaLaws.EmptyPresetField | dist/api/media/index.js:21-23 | an empty preset field makes the source build use the environment default and the compiled build send no preset |
| MediaLaws.InlinePayload | api/media/index.ts:76 | "data:image/png;base64,AAAA" carries the payload "AAAA" |
| MediaLaws.InlineSourceChosen | api/media/index.ts:73-76 | a form with only that `dataUrl` chooses the inline source "AAAA" |
| MediaLaws.InlineUploadScenario | api/media/index.ts:73-92 | that form with a valid token and a successful upload streams "AAAA" and answers 201 with the provider's URL and id, created by the token's subject |
| Express.LegacyToken | index.js:63-65 | the middleware's token is the non-empty second space-separated segment of `authorization`, right after the first space, whatever the first segment says |
| Express.AuthMiddleware | index.js:62-73 | a halt is 401 or 403; 401 "Token requerido" iff no token; 403 "Token inválido" iff the verifier rejects it; otherwise the request proceeds with the payload as `req.user` |
| Express.SchemeIgnored | index.js:65 | any space-free first word followed by a token yields that token, where `getBearer` accepts only the bearer scheme |
| Express.LowerCaseKeyOnly | index.js:63 | only the lower-case `authorization` entry is read |
| Express.AgreesWithGetBearer | index.js:65 | on a "Bearer" header the middleware and `getBearer` extract the same token |
| Express.Hashtags | index.js:210-212 | a falsy field gives []; a string gives, position by position, the trimmed comma-separated segments (commas + 1 of them, each comma-free, empty ones kept); any other value throws |
| Express.HashtagsCharacterized | index.js:210-212 | both directions: "" has no tags, and a non-empty text has exactly the tags that are the trimmed pieces of some comma-free list whose comma-join is the text |
| Express.TrimAllInfix | index.js:211 | trimming keeps comma-free segments comma-free |
| Express.HashtagsRoundTrip | index.js:210-212 | a tag list without commas or surrounding white space is recovered from its comma-joined text |
| Express.HashtagsKeepEmpty | index.js:211 | "a, b,,c" gives ["a", "b", "", "c"] |
| Express.FolderNamesUploader | index.js:194 | the folder is the name and the type (each defaulted when empty) joined by "/", and splitting it on "/" recovers the two |
| Express.DefaultFolder | index.js:194 | absent or empty name and type give "anonymous/media" |
| ExpressServer.CorsOrigin | index.js:23-42 | an origin is allowed iff it is absent/empty or exactly one of the two allow-listed strings; a refusal names the origin |
| ExpressServer.CorsMatchesIndexOf | index.js:30-41 | both directions: an origin is allowed iff it is falsy or `===` to one entry of `allowedOrigins`, as `indexOf(origin) !== -1` decides |
| ExpressServer.CorsIsExact | index.js:35 | a trailing slash, another scheme or another port is refused |
| ExpressServer.UploadMedia | index.js:178-235 | the provider is called iff the token passes and a file is present, with folder `name/type`, the environment preset and "auto"; a document is handed to `save()` iff the upload succeeds and the hashtags parse, with the provider's URL and id, the caller's `username`, the parsed tags and counters at 0; 200 with it iff the save is acknowledged; a hashtags value that cannot be split, or a rejected `save()`, inside the provider callback leaves the request unanswered (no `try` there) |
| ExpressServer.NoFileNoUpload | index.js:187 | no file gives 400 "No file uploaded" and no provider call |
| ExpressServer.ProviderErrorNoMedia | index.js:204 | a provider error gives 500 with its message and no record |
| ExpressServer.HaltedUploadTouchesNothing | index.js:62-73 | a halted request does nothing beyond the middleware's reply |
| ExpressServer.Register | index.js:238-285 | a record is saved iff the token passes and `url`, `title`, `type`, `username` are all truthy; 400 iff one is missing; 201 iff saved and acknowledged; a store failure is 500 with a fixed message |
| ExpressServer.EachFieldRequired | index.js:253-257 | each of the four fields, absent or "", gives 400 with no save |
| ExpressServer.RegisterFailureIsGeneric | index.js:281-284 | the store's error message does not reach the reply |
| ExpressServer.OwnedMedia | index.js:304-316 | 200 with the document iff the token passes, it exists and its `username` is `===` to the caller's; 404 iff it does not exist; 403 "Sin permiso" iff it belongs to someone else; 500 with the error's message iff `findById` rejects |
| ExpressServer.OnlyOwnerSees | index.js:309-312 | a returned document carries the caller's `username`, which is not an array or object |
| MediaRoutes.UploadMedia | routes/media.routes.js:14-58 | the provider is called iff a file is present, with folder `name/type` and "auto"; a document is handed to `save()` iff the upload succeeds and the hashtags parse, with `createdBy` = the caller's id, `publicId` copied, counters at 0; a provider error is 500; a hashtags value that cannot be split, or a rejected `save()`, inside the provider callback leaves the request unanswered |
| MediaRoutes.CreatorIsCaller | routes/media.routes.js:38-40 | the record's owner and public id do not depend on the form fields |
| MediaRoutes.Trending | routes/media.routes.js:61-64 | the sort is descending; missing `orderBy` and `limit` default to "views" and 10; given ones pass unchanged |
| MediaRoutes.TrendingDefaultsOnlyWhenMissing | routes/media.routes.js:61-64 | for every query, "views" and 10 apply exactly when the parameter is absent; a given value is kept even when falsy, which is exactly where `orderBy || "views"` and `limit || 10` would differ |
| MediaRoutes.ViewMedia | routes/media.routes.js:72-84 | a missing document is 404 "Media no encontrada"; a found one is saved with `views` + 1 and nothing else changed; 200 with it iff the save is acknowledged; 500 with the error's message iff `findById` or `save()` rejects |
| MediaRoutes.ViewsCountEachRequest | routes/media.routes.js:77-78 | two views add two |
| AuthApi.Login | api/auth/login.ts:7-22 | non-POST gets the guard's 405; missing fields 400 with no lookup; 401 "Credenciales inválidas" iff the user is unknown or the password mismatches; 200 iff it matches, with `user` = {id, username, request email} and a token over {sub: id, email}; 500 with a non-empty message iff the lookup or the comparison rejects or `_id.toString()` throws; `api/auth/login.js` is identical |
| AuthApi.UnknownUserLikeWrongPassword | api/auth/login.ts:13-16 | an unknown email and a wrong password get the same reply |
| AuthApi.LoginPasswordNonInterference | api/auth/login.ts:15-18 | the request's password reaches the reply only through the comparison's verdict, and the stored hash not at all |
| AuthApi.LoginSessionNamesUser | api/auth/login.ts:17-18 | a successful login's token names the stored id and the reply echoes the request's email |
| AuthApi.Signup | api/auth/signup.ts:7-22 | non-POST gets 405; missing fields 400; a taken email 409 "Email ya registrado" with no save; a save iff the email is free; 201 iff acknowledged, with the new id in `user` and as token subject; 500 with a non-empty message iff the lookup or the save rejects |
| AuthApi.TakenEmailNotSaved | api/auth/signup.ts:13-14 | a taken email is never saved again and never answered 201 |
| AuthApi.SignupSessionNamesNewUser | api/auth/signup.ts:15-18 | the reply's user and token carry the new id and do not depend on the password |
| ProfileApi.CheckedId | dist/api/user/profile.js:13-24 | the compiled build accepts a string `_id` as is and an object one through `toString()`, and refuses anything else |
| ProfileApi.GetProfile | api/user/profile.ts:7-15 | non-GET gets 405; the lookup happens iff auth passes, with the token's subject; 404 when not found; a rejected lookup is unanswered; 200 carries the stored username and email, with the id as stored (source build) or checked (compiled build, `dist/api/user/profile.js`) |
| ProfileApi.ProfileHidesPassword | api/user/profile.ts:14 | the stored password hash does not affect the reply |
| ProfileApi.BuildsAgreeOnStringIds | dist/api/user/profile.js:13-15 | with string ids the two builds behave the same |
| ProfileApi.NumericIdRefusedByDist | dist/api/user/profile.js:20-24 | a numeric id is 200 in the source build and 500 in the compiled one |
| UserController.GetUserById | controllers/userController.js:23-37 | 404 iff not found, 200 with the projected document iff found, 500 with a fixed message iff the lookup throws |
| UserController.ProfileOmitsPassword | controllers/userController.js:26-32 | the returned user never has a `password` key |
| UserController.RegisterUser | controllers/userController.js:42-74 | 400 "Todos los campos son requeridos" iff a field is missing; 400 "El email ya está registrado" iff the email is taken; a save (of the digest, not the password) iff the email is free and hashing succeeds; 201 iff acknowledged; 500 with one fixed message iff `req.body` is absent or the lookup, hashing or save rejects |
| UserController.DuplicateEmailNotSaved | controllers/userController.js:52-55 | a taken email is refused without hashing or saving |
| UserController.LoginUser | controllers/userController.js:79-120 | 400 for missing fields; 400 "Credenciales inválidas" iff unknown user or wrong password; 200 iff the password matches, with a token over the stored {id, email} and `user` = {id, username, email}; 500 "Error en login" iff `req.body` is absent or the lookup or comparison rejects |
| UserController.UnknownUserLikeWrongPassword | controllers/userController.js:89-98 | an unknown email and a wrong password get the same reply |
| UserController.LoginPasswordNonInterference | controllers/userController.js:95-115 | the password and the stored hash reach the reply only through the comparison |
| UserController.ErrorsAreGeneric | controllers/userController.js:33-35 | no thrown message reaches a reply, in any of the three operations (lines 70-72, 116-118) |

## Left out

- Byte transport is left out: `fs.createReadStream(...).pipe`, `Readable.from(buffer).pipe`, `upload_stream(...).end(buffer)` and the Cloudinary SDK. The provider is an oracle.
- Base64 decoding by `Buffer.from(..., "base64")` is left out. Only its throw on `undefined` is modelled, with Node's error message as a constant.
- The "Error al subir base64", "Error de subida" and "Error al subir desde URL" fallbacks are used only when a thrown error has an empty message. The `Buffer.from` error's message is never empty.
- Form parsing (formidable, multer) is an oracle, including the 50 MB limit. A multer error goes to Express's default error handler and is not modelled.
- Cryptography is left out: JWT signing and verification, bcrypt hashing and comparison, the `User` pre-save hook, and `api/media/signature.ts`. Tokens are kept as their claims and lifetime (`Users.Token`).
- Mongoose schema enforcement and query semantics are left out: `find`, `sort`, `lean`, `limit`, and `Number(limit)` in the trending route. The trending route is modelled up to the query it builds. `getUserById`'s projection is modelled as a key restriction.
- `index.js` builds its upload record with `mediaUrl`, `username` and `cloudinaryId`, which the `Media` schema does not declare. The model records what the handler builds, not what the schema would keep.
- `models/Media.js:5-6` declares `url` and `publicId` as required, but the documents built at `index.js:207-221`, `index.js:260-274` and `routes/media.routes.js:32-45` have no `url` (and the `index.js` ones no `publicId`). With the schema enforced, `save()` would reject them, so the 200 and 201 branches of those routes would not be reached; the model leaves that to the `store` outcome. `username` is not declared either, so the owner check at `index.js:309` would compare against a field the schema drops.
- Overlapping async calls to `dbConnect` are left out; only sequential calls are modelled.
- A rejected `dbConnect()` before a handler runs is left out. Each handler is modelled from the point where the connection has resolved.
- Module-load environment checks are left out (`lib/jwt.ts:4-5`, `lib/db.ts:3-4`). So are the secret fallbacks (`process.env.JWT_SECRET || 'secretkey'`): the verifier oracle stands for the configured secret.
- `createdAt: new Date()` (the clock) and upload `context` metadata are left out.
- Numbers are integers: NaN and fractions are not modelled. `toLowerCase` is modelled for ASCII only, which is exact for the comparison with "bearer".
- A provider callback with neither error nor result is treated like an error with an empty message (`Oracles.Upload`). In `index.js` and `routes/media.routes.js` it would instead throw inside the callback.
- A synchronous throw from `upload_stream` is not modelled, so the `try` around it in the streaming branches is never exercised.
- The `index.js` routes `/api/auth/register`, `/api/auth/login`, `GET /api/media` and `GET /`, and `getAllUsers` in `controllers/userController.js`, are left out. They are outside the modelled core.
- `api/media/[id].ts`, the scripts and the type declarations are left out.
- The router's `authMiddleware` (`middlewares/authMiddleware`) is not part of this model. `MediaRoutes.UploadMedia` starts from the payload it places in `req.user`.
- Behaviours of the code worth noting, which the model follows:
  - only the compiled media handler validates `resource_type`;
  - provider error messages are passed back to the client;
  - a store failure after a streamed upload leaves the request unanswered rather than giving 500;
  - a failed connection is never retried.

=== FILE: auth_api.dfy ===
/** The serverless login and signup handlers (`api/auth/login.ts`, compiled unchanged to
    `api/auth/login.js`, and `api/auth/signup.ts`). Both answer only POST, read their fields
    from `req.body || {}` and sign a session token whose subject is the user's id. */
module AuthApi {
  import opened Js
  import opened Oracles
  import opened Http
  import opened Users

  const FallbackError: string := "Error interno"
  const LoginFieldsRequired: string := "email y password son requeridos"
  const SignupFieldsRequired: string := "username, email y password son requeridos"
  const InvalidCredentials: string := "Credenciales inválidas"
  const EmailTaken: string := "Email ya registrado"

  /** `{user, token}` */
  datatype Session = Session(user: PublicUser, token: Token)

  /** The claims `signJwt` receives: the id's string form as `sub`, and the request's email. */
  function SessionClaims(id: string, email: JsValue): map<string, JsValue> {
    map["sub" := Str(id), "email" := email]
  }

  // ---------------------------------------------------------------------------
  // login
  // ---------------------------------------------------------------------------

  /** Whether the user store and the password check were consulted. */
  datatype LoginTrace = LoginTrace(lookedUp: bool, compared: bool)

  datatype LoginHandled = LoginHandled(reply: Reply<Session>, trace: LoginTrace)

  predicate LoginFieldsPresent(body: map<string, JsValue>) {
    Truthy(Get(body, "email")) && Truthy(Get(body, "password"))
  }

  /** `handler(req, res)` once `dbConnect()` has resolved. `body` is `req.body || {}` (a
      non-object body has no fields); `lookup` is `User.findOne({email})` and `compare` is
      `user.comparePassword(password)`. */
  function Login(verb: JsValue, body: map<string, JsValue>, lookup: Lookup<UserDoc>, compare: Comparison)
    : (h: LoginHandled)
    ensures MethodGuard<Session>(verb, ["POST"]).Some? ==>
              h == LoginHandled(MethodGuard<Session>(verb, ["POST"]).value, LoginTrace(false, false))
    ensures h.trace.lookedUp <==> MethodGuard<Session>(verb, ["POST"]).None? && LoginFieldsPresent(body)
    ensures MethodGuard<Session>(verb, ["POST"]).None? && !LoginFieldsPresent(body) ==>
              h.reply == Sent(400, None, Error(LoginFieldsRequired))
    ensures h.trace.compared <==> h.trace.lookedUp && lookup.Found?
    ensures h.reply.Sent?
    ensures h.reply.status == 401 <==>
              h.trace.lookedUp && (lookup.NotFound? || (lookup.Found? && compare.PwMismatch?))
    ensures h.reply.status == 401 ==> h.reply.body == Error(InvalidCredentials)
    ensures h.reply.status == 200 <==>
              h.trace.compared && compare.PwMatch? && !Nullish(lookup.doc.id)
    ensures h.reply.status == 200 ==>
              h.reply.body == Data(Session(
                PublicUser(lookup.doc.id, lookup.doc.username, Get(body, "email")),
                Signed(SessionClaims(Display(lookup.doc.id), Get(body, "email")), SessionLifetime)))
    ensures h.reply.status == 500 ==> h.reply.body.Error? && h.reply.body.error != ""
    ensures h.reply.status == 500 <==>
              h.trace.lookedUp
              && (lookup.LookupThrew?
                  || (lookup.Found? && (compare.CompareThrew? || (compare.PwMatch? && Nullish(lookup.doc.id)))))
  {
    match MethodGuard<Session>(verb, ["POST"])
    case Some(r) => LoginHandled(r, LoginTrace(false, false))
    case None =>
      var email := Get(body, "email");
      if !Truthy(email) || !Truthy(Get(body, "password")) then
        LoginHandled(SendJson(400, Error(LoginFieldsRequired)), LoginTrace(false, false))
      else
        match lookup
        case LookupThrew(m) => LoginHandled(SendJson(500, Error(MessageOr(m, FallbackError))), LoginTrace(true, false))
        case NotFound => LoginHandled(SendJson(401, Error(InvalidCredentials)), LoginTrace(true, false))
        case Found(user) =>
          match compare
          case CompareThrew(m) => LoginHandled(SendJson(500, Error(MessageOr(m, FallbackError))), LoginTrace(true, true))
          case PwMismatch => LoginHandled(SendJson(401, Error(InvalidCredentials)), LoginTrace(true, true))
          case PwMatch =>
            match ToStringOf(user.id)
            case None => LoginHandled(SendJson(500, Error(ToStringError(user.id))), LoginTrace(true, true))
            case Some(sub) =>
              var token := Signed(SessionClaims(sub, email), SessionLifetime);
              LoginHandled(SendJson(200, Data(Session(PublicUser(user.id, user.username, email), token))),
                           LoginTrace(true, true))
  }

  /** An unknown email and a wrong password get the same reply: the response does not tell
      which accounts exist. */
  lemma UnknownUserLikeWrongPassword(verb: JsValue, body: map<string, JsValue>, user: UserDoc, compare: Comparison)
    ensures Login(verb, body, NotFound, compare).reply == Login(verb, body, Found(user), PwMismatch).reply
  {
  }

  /** The password in the request reaches the reply only through the comparison's verdict,
      and the stored hash not at all. */
  lemma LoginPasswordNonInterference(verb: JsValue, body: map<string, JsValue>, p1: JsValue, p2: JsValue,
                                     user: UserDoc, hash: JsValue, compare: Comparison)
    requires Truthy(p1) == Truthy(p2)
    ensures Login(verb, body["password" := p1], Found(user), compare).reply
            == Login(verb, body["password" := p2], Found(user.(passwordHash := hash)), compare).reply
  {
    assert Get(body["password" := p1], "email") == Get(body["password" := p2], "email");
  }

  /** A successful login names the stored user in the token's subject and echoes the email
      the client sent, not the stored one. */
  lemma LoginSessionNamesUser(verb: JsValue, body: map<string, JsValue>, user: UserDoc)
    requires verb == Str("POST") && LoginFieldsPresent(body) && user.id.Str?
    ensures var r := Login(verb, body, Found(user), PwMatch).reply;
            && r.Sent? && r.status == 200
            && r.body.value.token.claims["sub"] == user.id
            && r.body.value.user.email == Get(body, "email")
  {
  }

  // ---------------------------------------------------------------------------
  // signup
  // ---------------------------------------------------------------------------

  /** The user signup saves; the pre-save hook that hashes `password` is not modelled. */
  datatype NewUser = NewUser(username: JsValue, email: JsValue, password: JsValue)

  datatype SignupTrace = SignupTrace(lookedUp: bool, saved: Option<NewUser>)

  datatype SignupHandled = SignupHandled(reply: Reply<Session>, trace: SignupTrace)

  predicate SignupFieldsPresent(body: map<string, JsValue>) {
    Truthy(Get(body, "username")) && Truthy(Get(body, "email")) && Truthy(Get(body, "password"))
  }

  /** `handler(req, res)` of `api/auth/signup.ts`. `existing` is `User.findOne({email})`,
      `newId` the hexadecimal ObjectId `new User(...)` receives, `store` what `save()` observes. */
  function Signup(verb: JsValue, body: map<string, JsValue>, existing: Lookup<UserDoc>, newId: string,
                  store: Write): (h: SignupHandled)
    ensures MethodGuard<Session>(verb, ["POST"]).Some? ==>
              h == SignupHandled(MethodGuard<Session>(verb, ["POST"]).value, SignupTrace(false, None))
    ensures h.trace.lookedUp <==> MethodGuard<Session>(verb, ["POST"]).None? && SignupFieldsPresent(body)
    ensures MethodGuard<Session>(verb, ["POST"]).None? && !SignupFieldsPresent(body) ==>
              h.reply == Sent(400, None, Error(SignupFieldsRequired))
    ensures h.trace.saved.Some? <==> h.trace.lookedUp && existing.NotFound?
    ensures h.trace.saved.Some? ==>
              h.trace.saved.value == NewUser(Get(body, "username"), Get(body, "email"), Get(body, "password"))
    ensures h.reply.Sent?
    ensures h.reply.status == 409 <==> h.trace.lookedUp && existing.Found?
    ensures h.reply.status == 409 ==> h.reply.body == Error(EmailTaken)
    ensures h.reply.status == 201 <==> h.trace.saved.Some? && store.Written?
    ensures h.reply.status == 201 ==>
              h.reply.body == Data(Session(
                PublicUser(Obj(newId), Get(body, "username"), Get(body, "email")),
                Signed(SessionClaims(newId, Get(body, "email")), SessionLifetime)))
    ensures h.reply.status == 500 ==> h.reply.body.Error? && h.reply.body.error != ""
    ensures h.reply.status == 500 <==> h.trace.lookedUp && (existing.LookupThrew? || (existing.NotFound? && store.WriteThrew?))
  {
    match MethodGuard<Session>(verb, ["POST"])
    case Some(r) => SignupHandled(r, SignupTrace(false, None))
    case None =>
      var username := Get(body, "username");
      var email := Get(body, "email");
      var password := Get(body, "password");
      if !Truthy(username) || !Truthy(email) || !Truthy(password) then
        SignupHandled(SendJson(400, Error(SignupFieldsRequired)), SignupTrace(false, None))
      else
        match existing
        case LookupThrew(m) => SignupHandled(SendJson(500, Error(MessageOr(m, FallbackError))), SignupTrace(true, None))
        case Found(_) => SignupHandled(SendJson(409, Error(EmailTaken)), SignupTrace(true, None))
        case NotFound =>
          var user := NewUser(username, email, password);
          match store
          case WriteThrew(m) =>
            SignupHandled(SendJson(500, Error(MessageOr(m, FallbackError))), SignupTrace(true, Some(user)))
          case Written =>
            var token := Signed(SessionClaims(newId, email), SessionLifetime);
            SignupHandled(SendJson(201, Data(Session(PublicUser(Obj(newId), username, email), token))),
                          SignupTrace(true, Some(user)))
  }

  /** A taken email is never saved a second time, whatever the store would do. */
  lemma TakenEmailNotSaved(verb: JsValue, body: map<string, JsValue>, user: UserDoc, newId: string, store: Write)
    ensures Signup(verb, body, Found(user), newId, store).trace.saved.None?
    ensures Signup(verb, body, Found(user), newId, store).reply.status != 201
  {
  }

  /** The new account's token and reply carry the id it was saved under, and the password
      chosen does not appear in the reply. */
  lemma SignupSessionNamesNewUser(body: map<string, JsValue>, p1: JsValue, p2: JsValue, newId: string)
    requires SignupFieldsPresent(body) && Truthy(p1) && Truthy(p2)
    ensures var r1 := Signup(Str("POST"), body["password" := p1], NotFound, newId, Written).reply;
            var r2 := Signup(Str("POST"), body["password" := p2], NotFound, newId, Written).reply;
            && r1 == r2
            && r1.Sent? && r1.status == 201
            && r1.body.value.token.claims["sub"] == Str(newId)
            && r1.body.value.user.id == Obj(newId)
  {
    assert Get(body["password" := p1], "email") == Get(body, "email");
    assert Get(body["password" := p1], "username") == Get(body, "username");
    assert Get(body["password" := p2], "email") == Get(body, "email");
    assert Get(body["password" := p2], "username") == Get(body, "username");
  }
}

=== FILE: auth_guard.dfy ===
/** `requireAuth` (`api/_authGuard.ts`, compiled unchanged to `dist/api/_authGuard.js`): the
    bearer token is verified and the payload's `sub` becomes the caller's id; otherwise exactly
    one 401 response is written. */
module AuthGuard {
  import opened Js
  import opened Oracles
  import opened Bearer

  const NotAuthenticated: string := "No autenticado"
  const InvalidToken: string := "Token inválido"

  /** The guard's two outcomes: `{userId}` returned with nothing written, or `null` returned
      after writing `status` with `{error: message}`. */
  datatype Gate = Admitted(userId: JsValue) | Denied(status: int, message: string)

  /** `requireAuth(req, res)`, with `verify` standing for `verifyJwt`. */
  function RequireAuth(headers: map<string, string>, verify: string -> Verdict): (g: Gate)
    ensures g.Denied? ==> g.status == 401
    ensures g.Denied? && g.message == NotAuthenticated <==> GetBearer(headers).None?
    ensures g.Denied? && g.message == InvalidToken <==>
              GetBearer(headers).Some? && verify(GetBearer(headers).value).Invalid?
    ensures g.Admitted? <==> GetBearer(headers).Some? && verify(GetBearer(headers).value).Valid?
    ensures g.Admitted? ==> g.userId == Get(verify(GetBearer(headers).value).payload, "sub")
  {
    match GetBearer(headers)
    case None => Denied(401, NotAuthenticated)
    case Some(token) =>
      match verify(token)
      case Valid(payload) => Admitted(Get(payload, "sub"))
      case Invalid => Denied(401, InvalidToken)
  }

  /** Without a token the verifier is not consulted: any two verifiers give the same outcome. */
  lemma NoTokenNoVerification(headers: map<string, string>, v1: string -> Verdict, v2: string -> Verdict)
    requires GetBearer(headers).None?
    ensures RequireAuth(headers, v1) == RequireAuth(headers, v2) == Denied(401, NotAuthenticated)
  {
  }

  /** The verifier is consulted on the extracted token only. */
  lemma OnlyExtractedTokenVerified(headers: map<string, string>, v1: string -> Verdict, v2: string -> Verdict)
    requires GetBearer(headers).Some?
    requires v1(GetBearer(headers).value) == v2(GetBearer(headers).value)
    ensures RequireAuth(headers, v1) == RequireAuth(headers, v2)
  {
  }

  /** A well-formed bearer header whose token verifies admits the payload's subject. */
  lemma ValidBearerAdmits(t: string, payload: map<string, JsValue>, verify: string -> Verdict)
    requires t != "" && ' ' !in t
    requires verify(t) == Valid(payload)
    ensures RequireAuth(map["authorization" := "Bearer " + t], verify) == Admitted(Get(payload, "sub"))
  {
    BearerRoundTrip(t);
  }
}

=== FILE: bearer.dfy ===
/** `getBearer` (`lib/jwt.ts`, identical in `lib/jwt.js` and `dist/lib/jwt.js`): the token of
    an `Authorization: Bearer <token>` header. The scheme is matched case-insensitively
    (section 2.1 of RFC 7235) but the header is split on single spaces, so the one-or-more
    spaces that section 2.1 of RFC 6750 allows between scheme and token are not accepted. */
module Bearer {
  import opened Js

  /** `headers[name]` on Node's header object (values are strings). */
  function Header(headers: map<string, string>, name: string): JsValue {
    if name in headers then Str(headers[name]) else Undefined
  }

  /** `headers.authorization || headers.Authorization` */
  function RawAuthorization(headers: map<string, string>): JsValue {
    Or(Header(headers, "authorization"), Header(headers, "Authorization"))
  }

  predicate IsBearerScheme(scheme: string) {
    ToLower(scheme) == "bearer"
  }

  /** The part of `getBearer` after the header has been read: `[scheme, token] = raw.split(" ")`,
      then reject unless the scheme is "bearer" in any case and the token is non-empty. */
  function TokenOf(raw: string): (r: Option<string>)
    ensures r.Some? ==> r.value != "" && ' ' !in r.value
  {
    var parts := Split(raw, ' ');
    SplitSegmentsFree(raw, ' ');
    var token := At(parts, 1);
    if !IsBearerScheme(parts[0]) || !Truthy(token) then None else Some(token.s)
  }

  /** `getBearer(headers)` */
  function GetBearer(headers: map<string, string>): (r: Option<string>)
    ensures r.Some? ==> r.value != "" && ' ' !in r.value
    ensures !Truthy(RawAuthorization(headers)) ==> r.None?
  {
    var raw := RawAuthorization(headers);
    match raw
    case Str(s) => if s == "" then None else TokenOf(s)
    case _ => None
  }

  /** What a header `getBearer` accepts looks like: a scheme spelling "bearer" in any case, one
      space, a non-empty space-free token, then nothing or a space and anything. Both directions. */
  lemma TokenOfCharacterized(raw: string, t: string)
    ensures TokenOf(raw) == Some(t) <==>
      exists scheme: string, rest: string :: AcceptedShape(raw, scheme, t, rest)
  {
    if TokenOf(raw) == Some(t) {
      var scheme, rest := TokenOfShape(raw);
      assert AcceptedShape(raw, scheme, t, rest);
    }
    if exists scheme: string, rest: string :: AcceptedShape(raw, scheme, t, rest) {
      var scheme: string, rest: string :| AcceptedShape(raw, scheme, t, rest);
      TokenOfAccepts(scheme, t, rest);
    }
  }

  predicate AcceptedShape(raw: string, scheme: string, t: string, rest: string) {
    && raw == scheme + " " + t + rest
    && ' ' !in scheme && IsBearerScheme(scheme)
    && t != "" && ' ' !in t
    && (rest == "" || rest[0] == ' ')
  }

  /** Every accepted header has the accepted shape, with the returned token in the middle. */
  lemma TokenOfShape(raw: string) returns (scheme: string, rest: string)
    requires TokenOf(raw).Some?
    ensures AcceptedShape(raw, scheme, TokenOf(raw).value, rest)
  {
    var parts := Split(raw, ' ');
    SplitSegmentsFree(raw, ' ');
    SplitTwoHeads(raw, ' ');
    scheme := parts[0];
    rest :| raw == parts[0] + [' '] + parts[1] + rest && (rest == "" || rest[0] == ' ');
  }

  /** Every header of the accepted shape yields its token. */
  lemma TokenOfAccepts(scheme: string, t: string, rest: string)
    requires AcceptedShape(scheme + " " + t + rest, scheme, t, rest)
    ensures TokenOf(scheme + " " + t + rest) == Some(t)
  {
    var parts := Split(scheme + " " + t + rest, ' ');
    SplitOfShape(scheme, t, rest, ' ');
    assert At(parts, 1) == Str(t);
  }

  /** With only a lower-case `authorization` entry, the header value is what gets parsed. */
  lemma SingleHeader(raw: string)
    ensures GetBearer(map["authorization" := raw]) == (if raw == "" then None else TokenOf(raw))
  {
    var h := map["authorization" := raw];
    assert Header(h, "authorization") == Str(raw);
    assert "Authorization" !in h;
  }

  lemma LowerSpellings()
    ensures IsBearerScheme("Bearer") && IsBearerScheme("bearer") && IsBearerScheme("BEARER")
  {
    assert ToLower("Bearer") == "bearer";
    assert ToLower("bearer") == "bearer";
    assert ToLower("BEARER") == "bearer";
  }

  lemma BasicIsNotBearer()
    ensures !IsBearerScheme("Basic")
  {
    assert ToLower("Basic")[1] == 'a';
  }

  /** Any header of the accepted shape, sent as the lower-case `authorization` entry, yields
      its token. */
  lemma AcceptedHeader(scheme: string, t: string, rest: string)
    requires AcceptedShape(scheme + " " + t + rest, scheme, t, rest)
    ensures GetBearer(map["authorization" := scheme + " " + t + rest]) == Some(t)
  {
    SingleHeader(scheme + " " + t + rest);
    TokenOfAccepts(scheme, t, rest);
  }

  /** Round trip: `getBearer({authorization: "Bearer " + t})` returns `t` for every non-empty
      space-free token. */
  lemma BearerRoundTrip(t: string)
    requires t != "" && ' ' !in t
    ensures GetBearer(map["authorization" := "Bearer " + t]) == Some(t)
  {
    LowerSpellings();
    assert "Bearer " + t == "Bearer" + " " + t;
    SchemeThenToken("Bearer", t);
  }

  /** A space-free scheme spelling "bearer" in any letter case (section 2.1 of RFC 7235), one
      space and a token. */
  lemma SchemeThenToken(scheme: string, t: string)
    requires ' ' !in scheme && IsBearerScheme(scheme)
    requires t != "" && ' ' !in t
    ensures GetBearer(map["authorization" := scheme + " " + t]) == Some(t)
  {
    assert scheme + " " + t + "" == scheme + " " + t;
    AcceptedHeader(scheme, t, "");
  }

  /** Everything after the token's trailing space is ignored: "Bearer a b" gives "a". */
  lemma TrailingSegmentsIgnored(t: string, tail: string)
    requires t != "" && ' ' !in t
    ensures GetBearer(map["authorization" := "Bearer " + t + " " + tail]) == Some(t)
  {
    LowerSpellings();
    assert "Bearer " + t + " " + tail == "Bearer" + " " + t + (" " + tail);
    AcceptedHeader("Bearer", t, " " + tail);
  }

  /** A header without a space has no token segment. */
  lemma NoSpaceRejected(raw: string)
    requires ' ' !in raw
    ensures TokenOf(raw) == None
  {
    SplitNoSeparator(raw, ' ');
  }

  /** A scheme followed by a space and nothing else has an empty token segment. */
  lemma TrailingSpaceRejected(scheme: string)
    requires ' ' !in scheme
    ensures TokenOf(scheme + [' ']) == None
  {
    assert scheme + [' '] == scheme + [' '] + "";
    SplitPrefix(scheme, "", ' ');
    SplitNoSeparator("", ' ');
  }

  /** A second space straight after the first leaves the token segment empty. */
  lemma EmptyTokenRejected(scheme: string, b: string)
    requires ' ' !in scheme
    ensures TokenOf(scheme + [' '] + ([' '] + b)) == None
  {
    SplitPrefix(scheme, [' '] + b, ' ');
    assert [' '] + b == "" + [' '] + b;
    SplitPrefix("", b, ' ');
  }

  /** A first segment that is not "bearer" in some case is refused whatever follows. */
  lemma OtherSchemeRejected(scheme: string, b: string)
    requires ' ' !in scheme && !IsBearerScheme(scheme)
    ensures TokenOf(scheme + [' '] + b) == None
  {
    SplitPrefix(scheme, b, ' ');
  }

  /** A missing header, the bare scheme and a trailing space yield no token. */
  lemma RejectsMissingToken()
    ensures GetBearer(map[]) == None
    ensures GetBearer(map["authorization" := "Bearer"]) == None
    ensures GetBearer(map["authorization" := "Bearer "]) == None
  {
    SingleHeader("Bearer");
    NoSpaceRejected("Bearer");
    SingleHeader("Bearer ");
    assert "Bearer " == "Bearer" + [' '];
    TrailingSpaceRejected("Bearer");
  }

  /** Two spaces between scheme and token, which section 2.1 of RFC 6750 allows, yield no
      token: the second segment is empty. */
  lemma RejectsDoubleSpace(t: string)
    ensures GetBearer(map["authorization" := "Bearer  " + t]) == None
  {
    SingleHeader("Bearer  " + t);
    assert "Bearer  " + t == "Bearer" + [' '] + ([' '] + t);
    EmptyTokenRejected("Bearer", t);
  }

  /** Another scheme yields no token, whatever follows it. */
  lemma RejectsOtherScheme(t: string)
    ensures GetBearer(map["authorization" := "Basic " + t]) == None
  {
    BasicIsNotBearer();
    SingleHeader("Basic " + t);
    assert "Basic " + t == "Basic" + [' '] + t;
    OtherSchemeRejected("Basic", t);
  }

  /** A non-empty lower-case `authorization` entry is used even when `Authorization` is present;
      an empty one falls through to `Authorization`. */
  lemma HeaderKeyPriority(a: string, b: string)
    ensures a != "" ==> GetBearer(map["authorization" := a, "Authorization" := b]) == TokenOf(a)
    ensures GetBearer(map["authorization" := "", "Authorization" := b]) == (if b == "" then None else TokenOf(b))
  {
  }
}

=== FILE: db_cache.dfy ===
/** `dbConnect` (`lib/db.ts`, compiled unchanged to `dist/lib/db.js`): a process-wide cache of
    two fields, the settled connection `conn` and the connect `promise`. Calls are modelled one
    after another; overlapping awaits are not. */
module DbCache {
  import opened Js

  /** The mongoose instance a successful connect yields (always truthy). */
  datatype Connection = Connection(handle: nat)

  /** How the connect promise settles. */
  datatype Settled = Resolved(conn: Connection) | Rejected(reason: string)

  datatype Cache = Cache(conn: Option<Connection>, promise: Option<Settled>)

  /** `g._mongoose ||= { conn: null, promise: null }` */
  const Initial: Cache := Cache(None, None)

  /** One call: the cache afterwards, what the call returns or throws, and whether it invoked
      `mongoose.connect`. */
  datatype Step = Step(cache: Cache, outcome: Settled, connected: bool)

  /** The states sequential calls can reach: `conn` is only ever the resolved value of the
      stored promise, and a stored promise without `conn` has rejected. */
  predicate Reachable(c: Cache) {
    && (c.conn.Some? ==> c.promise == Some(Resolved(c.conn.value)))
    && (c.conn.None? && c.promise.Some? ==> c.promise.value.Rejected?)
  }

  /** One call of `dbConnect()`; `attempt` is how `mongoose.connect` would settle if this call
      invoked it. */
  function Call(c: Cache, attempt: Settled): (s: Step)
    ensures c.conn.Some? ==> s == Step(c, Resolved(c.conn.value), false)
    ensures s.connected <==> c.conn.None? && c.promise.None?
    ensures s.connected ==> s.outcome == attempt
    ensures Reachable(c) ==> Reachable(s.cache) && s.cache.promise == Some(s.outcome)
    ensures s.outcome.Resolved? ==> s.cache.conn == Some(s.outcome.conn)
    ensures s.outcome.Rejected? ==> s.cache.conn == c.conn
  {
    if c.conn.Some? then Step(c, Resolved(c.conn.value), false)
    else
      var invoked := c.promise.None?;
      var p := if invoked then attempt else c.promise.value;
      match p
      case Resolved(x) => Step(Cache(Some(x), Some(p)), p, invoked)
      case Rejected(_) => Step(Cache(c.conn, Some(p)), p, invoked)
  }

  /** A rejected connect is kept: every later call re-throws the same reason, never reconnects
      and leaves the cache as it is. */
  lemma RejectionIsSticky(c: Cache, attempt: Settled)
    requires Reachable(c) && c.promise.Some? && c.promise.value.Rejected?
    ensures Call(c, attempt) == Step(c, c.promise.value, false)
  {
  }

  /** `n` sequential calls from the initial cache, the i-th offered `attempts[i]`. Returns every
      call's outcome and the number of `mongoose.connect` invocations. */
  method Replay(attempts: seq<Settled>) returns (outcomes: seq<Settled>, connects: nat, final: Cache)
    ensures |outcomes| == |attempts|
    ensures connects <= 1
    ensures connects == 0 <==> |attempts| == 0
    ensures forall i :: 0 <= i < |outcomes| ==> outcomes[i] == attempts[0]
    ensures |attempts| > 0 ==> final.promise == Some(attempts[0])
    ensures |attempts| > 0 && attempts[0].Resolved? ==> final.conn == Some(attempts[0].conn)
    ensures |attempts| > 0 && attempts[0].Rejected? ==> final.conn.None?
  {
    var c := Initial;
    outcomes := [];
    connects := 0;
    var i := 0;
    while i < |attempts|
      invariant 0 <= i <= |attempts|
      invariant |outcomes| == i
      invariant Reachable(c)
      invariant connects == (if i == 0 then 0 else 1)
      invariant i == 0 ==> c == Initial
      invariant i > 0 ==> c.promise == Some(attempts[0])
      invariant forall k :: 0 <= k < i ==> outcomes[k] == attempts[0]
    {
      var s := Call(c, attempts[i]);
      outcomes := outcomes + [s.outcome];
      if s.connected {
        connects := connects + 1;
      }
      c := s.cache;
      i := i + 1;
    }
    final := c;
  }

  /** The functional form of the same replay. */
  function Run(c: Cache, attempts: seq<Settled>): (r: (Cache, seq<Settled>, nat))
    ensures |r.1| == |attempts|
    decreases |attempts|
  {
    if |attempts| == 0 then (c, [], 0)
    else
      var s := Call(c, attempts[0]);
      var rest := Run(s.cache, attempts[1..]);
      (rest.0, [s.outcome] + rest.1, rest.2 + (if s.connected then 1 else 0))
  }

  /** From any reachable cache, a run of calls invokes `mongoose.connect` at most once, and
      only if nothing was stored; once a promise is stored, every call returns what it settled
      to. */
  lemma {:induction false} RunConnectsAtMostOnce(c: Cache, attempts: seq<Settled>)
    requires Reachable(c)
    ensures Run(c, attempts).2 <= 1
    ensures c.promise.Some? ==> Run(c, attempts).2 == 0
    ensures c.promise.Some? ==> forall i :: 0 <= i < |attempts| ==> Run(c, attempts).1[i] == c.promise.value
    ensures c.promise.Some? ==> Run(c, attempts).0 == c
    decreases |attempts|
  {
    if |attempts| > 0 {
      var s := Call(c, attempts[0]);
      RunConnectsAtMostOnce(s.cache, attempts[1..]);
      if c.promise.Some? {
        assert s.cache == c;
      }
    }
  }
}

=== FILE: express.dfy ===
/** Pieces the Express server (`index.js`) and its media router (`routes/media.routes.js`)
    share: the legacy `authMiddleware`, the hashtag list built from a comma-separated field,
    and the provider folder named after the uploader. */
module Express {
  import opened Js
  import opened Oracles
  import opened Bearer

  const TokenRequired: string := "Token requerido"
  const InvalidToken: string := "Token inválido"

  /** The upload routes' reply when `req.file` is missing. */
  const NoFileUploaded: string := "No file uploaded"

  // ---------------------------------------------------------------------------
  // authMiddleware (index.js)
  // ---------------------------------------------------------------------------

  /** `authHeader && authHeader.split(' ')[1]` when it is truthy: the second space-separated
      segment of `req.headers['authorization']`, whatever the first segment says. */
  function LegacyToken(headers: map<string, string>): (r: Option<string>)
    ensures r.Some? ==> r.value != "" && ' ' !in r.value
    ensures r.Some? <==> "authorization" in headers && |Split(headers["authorization"], ' ')| >= 2
                         && Split(headers["authorization"], ' ')[1] != ""
    ensures r.Some? ==> FollowsFirstSeparator(headers["authorization"], ' ', r.value)
  {
    match Header(headers, "authorization")
    case Str(raw) =>
      HasSecondSegment(raw, ' ');
      (match At(Split(raw, ' '), 1)
       case Str(t) =>
         if t == "" then None
         else
           SecondSegment(raw, ' ');
           assert t == Split(raw, ' ')[1];
           Some(t)
       case _ => None)
    case _ => None
  }

  /** Whether the request continues to the route handler with `req.user` set to the decoded
      payload, or stops with `{error: message}`. */
  datatype Pass = Proceed(user: map<string, JsValue>) | Halt(status: int, message: string)

  /** `authMiddleware(req, res, next)`, with `verify` standing for `jwt.verify` under the
      server's secret. A missing token is 401, a token the verifier rejects is 403. */
  function AuthMiddleware(headers: map<string, string>, verify: string -> Verdict): (p: Pass)
    ensures p.Halt? ==> p.status == 401 || p.status == 403
    ensures p.Halt? && p.status == 401 <==> LegacyToken(headers).None?
    ensures p.Halt? && p.status == 401 ==> p.message == TokenRequired
    ensures p.Halt? && p.status == 403 <==> LegacyToken(headers).Some? && verify(LegacyToken(headers).value).Invalid?
    ensures p.Halt? && p.status == 403 ==> p.message == InvalidToken
    ensures p.Proceed? <==> LegacyToken(headers).Some? && verify(LegacyToken(headers).value).Valid?
    ensures p.Proceed? ==> p.user == verify(LegacyToken(headers).value).payload
  {
    match LegacyToken(headers)
    case None => Halt(401, TokenRequired)
    case Some(token) =>
      match verify(token)
      case Invalid => Halt(403, InvalidToken)
      case Valid(payload) => Proceed(payload)
  }

  /** The scheme is never looked at: any space-free first word followed by a token yields it,
      where `getBearer` accepts only the "Bearer" scheme. */
  lemma SchemeIgnored(scheme: string, t: string)
    requires ' ' !in scheme && t != "" && ' ' !in t
    ensures LegacyToken(map["authorization" := scheme + " " + t]) == Some(t)
    ensures !IsBearerScheme(scheme) ==> GetBearer(map["authorization" := scheme + " " + t]).None?
  {
    var raw := scheme + " " + t;
    assert raw == scheme + [' '] + t + "";
    SplitOfShape(scheme, t, "", ' ');
    assert Header(map["authorization" := raw], "authorization") == Str(raw);
    if !IsBearerScheme(scheme) {
      assert RawAuthorization(map["authorization" := raw]) == Str(raw);
    }
  }

  /** Only the lower-case header key is read: a header stored under "Authorization" alone is
      "Token requerido", where `getBearer` would also look there. */
  lemma LowerCaseKeyOnly(raw: string, verify: string -> Verdict)
    ensures AuthMiddleware(map["Authorization" := raw], verify) == Halt(401, TokenRequired)
  {
    assert "authorization" !in map["Authorization" := raw];
  }

  /** On a "Bearer" header the middleware and `getBearer` extract the same token. */
  lemma AgreesWithGetBearer(t: string)
    requires t != "" && ' ' !in t
    ensures LegacyToken(map["authorization" := "Bearer " + t]) == GetBearer(map["authorization" := "Bearer " + t]) == Some(t)
  {
    assert ' ' !in "Bearer";
    SchemeIgnored("Bearer", t);
    BearerRoundTrip(t);
  }

  // ---------------------------------------------------------------------------
  // Hashtags
  // ---------------------------------------------------------------------------

  /** `parts.map(h => h.trim())` */
  function TrimAll(parts: seq<string>): (r: seq<string>)
    ensures |r| == |parts|
    ensures forall i :: 0 <= i < |parts| ==> r[i] == Trim(parts[i])
  {
    seq(|parts|, i requires 0 <= i < |parts| => Trim(parts[i]))
  }

  /** `hashtags ? hashtags.split(',').map(h => h.trim()) : []`. A truthy value that is not a
      string has no `split`: the expression throws, shown as `None`. */
  function Hashtags(hashtags: JsValue): (r: Option<seq<string>>)
    ensures r.None? <==> Truthy(hashtags) && !hashtags.Str?
    ensures !Truthy(hashtags) ==> r == Some([])
    ensures r.Some? && hashtags.Str? && hashtags.s != "" ==>
              |r.value| == Count(hashtags.s, ',') + 1
              && forall i :: 0 <= i < |r.value| ==> ',' !in r.value[i]
    ensures r.Some? && hashtags.Str? && hashtags.s != "" ==>
              |r.value| == |Split(hashtags.s, ',')|
              && forall i :: 0 <= i < |r.value| ==> r.value[i] == Trim(Split(hashtags.s, ',')[i])
  {
    if !Truthy(hashtags) then Some([])
    else if hashtags.Str? then
      var parts := Split(hashtags.s, ',');
      SplitLength(hashtags.s, ',');
      SplitSegmentsFree(hashtags.s, ',');
      TrimAllInfix(parts);
      Some(TrimAll(parts))
    else None
  }

  /** Trimming keeps a comma-free segment comma-free. */
  lemma TrimAllInfix(parts: seq<string>)
    requires forall i :: 0 <= i < |parts| ==> ',' !in parts[i]
    ensures forall i :: 0 <= i < |parts| ==> ',' !in TrimAll(parts)[i]
  {
    forall i | 0 <= i < |parts|
      ensures ',' !in TrimAll(parts)[i]
    {
      TrimIsInfix(parts[i]);
    }
  }

  /** `text` is `parts` joined by commas, no part containing a comma. */
  ghost predicate CommaSegments(text: string, parts: seq<string>) {
    && |parts| >= 1
    && Join(parts, ',') == text
    && forall i :: 0 <= i < |parts| ==> ',' !in parts[i]
  }

  /** What the tags of a string are, both directions: no tags for "", and otherwise exactly
      the trimmed comma-free pieces that the text is the comma-join of. */
  lemma HashtagsCharacterized(text: string, tags: seq<string>)
    ensures Hashtags(Str(text)) == Some(tags) <==>
              (text == "" && tags == [])
              || (text != "" && exists parts :: CommaSegments(text, parts) && tags == TrimAll(parts))
  {
    if text != "" {
      var parts := Split(text, ',');
      if Hashtags(Str(text)) == Some(tags) {
        JoinSplit(text, ',');
        SplitSegmentsFree(text, ',');
        assert CommaSegments(text, parts) && tags == TrimAll(parts);
      }
      if exists ps :: CommaSegments(text, ps) && tags == TrimAll(ps) {
        var ps :| CommaSegments(text, ps) && tags == TrimAll(ps);
        SplitJoin(ps, ',');
        assert parts == ps;
      }
    }
  }

  /** A tag list is recovered from its comma-joined text when no tag contains a comma or has
      white space at either end (and the text is not empty, which would mean "no tags"). */
  lemma HashtagsRoundTrip(tags: seq<string>)
    requires |tags| >= 1 && Join(tags, ',') != ""
    requires forall i :: 0 <= i < |tags| ==> ',' !in tags[i]
    requires forall i :: 0 <= i < |tags| ==> |tags[i]| > 0 ==> !IsSpace(tags[i][0]) && !IsSpace(tags[i][|tags[i]| - 1])
    ensures Hashtags(Str(Join(tags, ','))) == Some(tags)
  {
    SplitJoin(tags, ',');
    forall i | 0 <= i < |tags|
      ensures Trim(tags[i]) == tags[i]
    {
      TrimmedIsFixed(tags[i]);
    }
    assert TrimAll(tags) == tags;
  }

  /** Empty segments are kept: "a, b,,c" is four tags, the third empty. */
  lemma HashtagsKeepEmpty()
    ensures Hashtags(Str("a, b,,c")) == Some(["a", "b", "", "c"])
  {
    SampleSplit();
    SampleTrim();
  }

  /** The split step of `HashtagsKeepEmpty`, kept apart to keep each proof small. */
  lemma SampleSplit()
    ensures Split("a, b,,c", ',') == ["a", " b", "", "c"]
  {
    var s := "a, b,,c";
    assert s == "a" + [','] + (" b" + [','] + ("" + [','] + "c"));
    SplitPrefix("a", " b" + [','] + ("" + [','] + "c"), ',');
    SplitPrefix(" b", "" + [','] + "c", ',');
    SplitPrefix("", "c", ',');
    SplitNoSeparator("c", ',');
  }

  /** The trim step of `HashtagsKeepEmpty`. */
  lemma SampleTrim()
    ensures TrimAll(["a", " b", "", "c"]) == ["a", "b", "", "c"]
  {
    assert Trim("a") == "a";
    assert TrimStart(" b") == "b";
    assert Trim(" b") == "b";
    assert Trim("") == "";
    assert Trim("c") == "c";
  }

  // ---------------------------------------------------------------------------
  // Upload folder
  // ---------------------------------------------------------------------------

  /** `${username || 'anonymous'}/${type || 'media'}` */
  function UploadFolder(username: JsValue, kind: JsValue): string {
    Display(Or(username, Str("anonymous"))) + "/" + Display(Or(kind, Str("media")))
  }

  /** The folder is the uploader's name and the media type, each defaulted when falsy; when
      neither contains "/" the two are recovered by splitting on "/". */
  lemma FolderNamesUploader(username: string, kind: string)
    requires '/' !in username && '/' !in kind
    ensures var u := if username == "" then "anonymous" else username;
            var k := if kind == "" then "media" else kind;
            && UploadFolder(Str(username), Str(kind)) == u + "/" + k
            && Split(UploadFolder(Str(username), Str(kind)), '/') == [u, k]
  {
    var u := if username == "" then "anonymous" else username;
    var k := if kind == "" then "media" else kind;
    assert u + "/" + k == u + ['/'] + k;
    SplitPrefix(u, k, '/');
    SplitNoSeparator(k, '/');
  }

  /** Absent name and type give "anonymous/media". */
  lemma DefaultFolder()
    ensures UploadFolder(Undefined, Undefined) == "anonymous/media"
    ensures UploadFolder(Str(""), Null) == "anonymous/media"
  {
  }
}

=== FILE: express_server.dfy ===
/** The Express server's own routes (`index.js`): the CORS origin check, the `/api/media`
    upload, `/api/media/register` and the owner-restricted `GET /api/media/:id`. */
module ExpressServer {
  import opened Js
  import opened Oracles
  import opened Http
  import opened Express

  // ---------------------------------------------------------------------------
  // CORS
  // ---------------------------------------------------------------------------

  const AllowedOrigins: seq<string> := ["http://localhost:3000", "https://challz-frontend.vercel.app"]

  /** The `origin` option's callback: allowed (`callback(null, true)`) or refused with an error. */
  datatype CorsDecision = AllowOrigin | RejectOrigin(message: string)

  /** `corsOptions.origin(origin, callback)` */
  function CorsOrigin(origin: JsValue): (d: CorsDecision)
    ensures d.AllowOrigin? <==> !Truthy(origin) || (origin.Str? && origin.s in AllowedOrigins)
    ensures d.RejectOrigin? ==> d.message == "CORS: El origen " + Display(origin) + " no está permitido."
  {
    if !Truthy(origin) then AllowOrigin
    else if Includes(AllowedOrigins, origin) then AllowOrigin
    else RejectOrigin("CORS: El origen " + Display(origin) + " no está permitido.")
  }

  /** The callback agrees with `allowedOrigins.indexOf(origin) !== -1` behind the `!origin`
      shortcut: `indexOf` compares with `===`. */
  lemma CorsMatchesIndexOf(origin: JsValue)
    ensures CorsOrigin(origin).AllowOrigin? <==>
              !Truthy(origin) || exists i :: 0 <= i < |AllowedOrigins| && StrictEquals(origin, Str(AllowedOrigins[i]))
  {
    if origin.Str? && origin.s in AllowedOrigins {
      var i :| 0 <= i < |AllowedOrigins| && AllowedOrigins[i] == origin.s;
      assert StrictEquals(origin, Str(AllowedOrigins[i]));
    }
  }

  /** Matching is exact: a trailing slash, another scheme or another port is refused. */
  lemma CorsIsExact()
    ensures CorsOrigin(Str("http://localhost:3000")) == AllowOrigin
    ensures CorsOrigin(Str("https://challz-frontend.vercel.app")) == AllowOrigin
    ensures CorsOrigin(Str("https://challz-frontend.vercel.app/")).RejectOrigin?
    ensures CorsOrigin(Str("https://localhost:3000")).RejectOrigin?
    ensures CorsOrigin(Str("http://localhost:3001")).RejectOrigin?
    ensures CorsOrigin(Undefined) == AllowOrigin
  {
    assert "https://challz-frontend.vercel.app/" != AllowedOrigins[0];
    assert "https://challz-frontend.vercel.app/" != AllowedOrigins[1];
    assert "https://localhost:3000" != AllowedOrigins[0];
    assert "https://localhost:3000" != AllowedOrigins[1];
    assert "http://localhost:3001" != AllowedOrigins[0];
    assert "http://localhost:3001" != AllowedOrigins[1];
  }

  // ---------------------------------------------------------------------------
  // POST /api/media
  // ---------------------------------------------------------------------------

  /** The options handed to `upload_stream`; `context` (title, description, hashtags) is
      metadata the model does not follow. */
  datatype StreamCall = StreamCall(folder: string, uploadPreset: JsValue, resourceType: string)

  /** The `Media` document the upload callback saves (`createdAt` is the wall clock, not kept). */
  datatype UploadedMedia = UploadedMedia(
    title: JsValue,
    description: JsValue,
    hashtags: seq<string>,
    kind: JsValue,
    username: JsValue,
    mediaUrl: string,
    cloudinaryId: string,
    views: int,
    likes: int,
    comments: int)

  /** `saved` is the document handed to `media.save()`, whether or not the write succeeds. */
  datatype UploadTrace = UploadTrace(call: Option<StreamCall>, saved: Option<UploadedMedia>)

  datatype UploadHandled = UploadHandled(reply: Reply<UploadedMedia>, trace: UploadTrace)

  /** `app.post('/api/media', authMiddleware, upload.single('file'), handler)`. `fields` is
      `req.body`, `file` is `req.file`, `envPreset` is `CLOUDINARY_UPLOAD_PRESET`, `provider`
      and `store` what the provider callback and `media.save()` observe. */
  function UploadMedia(headers: map<string, string>, verify: string -> Verdict, fields: map<string, JsValue>,
                  file: JsValue, envPreset: JsValue, provider: Upload, store: Write): (h: UploadHandled)
    ensures h.trace.call.Some? <==> AuthMiddleware(headers, verify).Proceed? && Truthy(file)
    ensures h.trace.call.Some? ==>
              && h.trace.call.value.resourceType == "auto"
              && h.trace.call.value.uploadPreset == envPreset
              && h.trace.call.value.folder
                 == UploadFolder(Get(AuthMiddleware(headers, verify).user, "username"), Get(fields, "type"))
    ensures h.trace.saved.Some? <==>
              h.trace.call.Some? && provider.Uploaded? && Hashtags(Get(fields, "hashtags")).Some?
    ensures h.trace.saved.Some? ==>
              var m := h.trace.saved.value;
              && m.mediaUrl == provider.result.secureUrl && m.cloudinaryId == provider.result.publicId
              && m.username == Get(AuthMiddleware(headers, verify).user, "username")
              && m.hashtags == Hashtags(Get(fields, "hashtags")).value
              && m.views == 0 && m.likes == 0 && m.comments == 0
    ensures h.reply.Sent? && h.reply.status == 200 <==> h.trace.saved.Some? && store.Written?
    ensures h.reply.Sent? && h.reply.status == 200 ==> h.reply.body == Data(h.trace.saved.value)
    ensures (h.trace.call.Some? && provider.Uploaded?
             && (Hashtags(Get(fields, "hashtags")).None? || store.WriteThrew?)) ==> h.reply.Unanswered?
  {
    match AuthMiddleware(headers, verify)
    case Halt(status, message) => UploadHandled(SendJson(status, Error(message)), UploadTrace(None, None))
    case Proceed(user) =>
      if !Truthy(file) then UploadHandled(SendJson(400, Error(NoFileUploaded)), UploadTrace(None, None))
      else
        var username := Get(user, "username");
        var call := Some(StreamCall(UploadFolder(username, Get(fields, "type")), envPreset, "auto"));
        match provider
        case UploadFailed(m) => UploadHandled(SendJson(500, Error(m)), UploadTrace(call, None))
        case Uploaded(r) =>
          match Hashtags(Get(fields, "hashtags"))
          // The callback throws before the record exists; nothing answers the request.
          case None => UploadHandled(Unanswered, UploadTrace(call, None))
          case Some(tags) =>
            var media := UploadedMedia(Get(fields, "title"), Get(fields, "description"), tags,
                                       Get(fields, "type"), username, r.secureUrl, r.publicId, 0, 0, 0);
            match store
            case Written => UploadHandled(SendJson(200, Data(media)), UploadTrace(call, Some(media)))
            // `media.save()` rejects inside the callback, outside the handler's `try`.
            case WriteThrew(_) => UploadHandled(Unanswered, UploadTrace(call, Some(media)))
  }

  /** Without a file the reply is 400 and the provider is never called. */
  lemma NoFileNoUpload(headers: map<string, string>, verify: string -> Verdict, fields: map<string, JsValue>,
                       file: JsValue, envPreset: JsValue, provider: Upload, store: Write)
    requires AuthMiddleware(headers, verify).Proceed? && !Truthy(file)
    ensures UploadMedia(headers, verify, fields, file, envPreset, provider, store)
            == UploadHandled(Sent(400, None, Error(NoFileUploaded)), UploadTrace(None, None))
  {
  }

  /** A provider error is answered 500 with its message and leaves no record. */
  lemma ProviderErrorNoMedia(headers: map<string, string>, verify: string -> Verdict, fields: map<string, JsValue>,
                             file: JsValue, envPreset: JsValue, m: string, store: Write)
    requires AuthMiddleware(headers, verify).Proceed? && Truthy(file)
    ensures var h := UploadMedia(headers, verify, fields, file, envPreset, UploadFailed(m), store);
            h.reply == Sent(500, None, Error(m)) && h.trace.saved.None?
  {
  }

  /** A rejected token stops the upload before the file is looked at. */
  lemma HaltedUploadTouchesNothing(headers: map<string, string>, verify: string -> Verdict, fields: map<string, JsValue>,
                                   file: JsValue, envPreset: JsValue, provider: Upload, store: Write)
    requires AuthMiddleware(headers, verify).Halt?
    ensures var h := UploadMedia(headers, verify, fields, file, envPreset, provider, store);
            && h.trace == UploadTrace(None, None)
            && h.reply == Sent(AuthMiddleware(headers, verify).status, None, Error(AuthMiddleware(headers, verify).message))
  {
  }

  // ---------------------------------------------------------------------------
  // POST /api/media/register
  // ---------------------------------------------------------------------------

  /** The `Media` document built from already-uploaded metadata. */
  datatype RegisteredMedia = RegisteredMedia(
    mediaUrl: JsValue,
    title: JsValue,
    description: JsValue,
    hashtags: seq<JsValue>,
    kind: JsValue,
    username: JsValue,
    userPhotoURL: JsValue,
    challengeId: JsValue,
    challengeTitle: JsValue,
    views: int,
    likes: int,
    comments: int)

  datatype RegisterBody = Registered(message: string, media: RegisteredMedia)

  datatype RegisterHandled = RegisterHandled(reply: Reply<RegisterBody>, saved: Option<RegisteredMedia>)

  const MissingMediaFields: string := "Faltan campos obligatorios: url, title, type, username"
  const RegisterFailed: string := "Error interno al registrar media"
  const MediaRegistered: string := "Media registrada exitosamente"

  /** The four fields the route insists on. */
  predicate HasRequiredFields(fields: map<string, JsValue>) {
    Truthy(Get(fields, "url")) && Truthy(Get(fields, "title")) && Truthy(Get(fields, "type"))
    && Truthy(Get(fields, "username"))
  }

  /** `Array.isArray(hashtags) ? hashtags : []` */
  function TagArray(hashtags: JsValue): seq<JsValue> {
    if hashtags.Arr? then hashtags.items else []
  }

  function RegisteredFrom(fields: map<string, JsValue>): (m: RegisteredMedia)
    ensures m.mediaUrl == Get(fields, "url") && m.title == Get(fields, "title")
    ensures m.kind == Get(fields, "type") && m.username == Get(fields, "username")
    ensures m.hashtags == (if Get(fields, "hashtags").Arr? then Get(fields, "hashtags").items else [])
    ensures m.views == 0 && m.likes == 0 && m.comments == 0
  {
    RegisteredMedia(Get(fields, "url"), Get(fields, "title"), Get(fields, "description"),
                    TagArray(Get(fields, "hashtags")), Get(fields, "type"), Get(fields, "username"),
                    Get(fields, "userPhotoURL"), Get(fields, "challengeId"), Get(fields, "challengeTitle"),
                    0, 0, 0)
  }

  /** `app.post('/api/media/register', authMiddleware, handler)` with `req.body` as `fields`. */
  function Register(headers: map<string, string>, verify: string -> Verdict, fields: map<string, JsValue>,
                    store: Write): (h: RegisterHandled)
    ensures h.saved.Some? <==> AuthMiddleware(headers, verify).Proceed? && HasRequiredFields(fields)
    ensures h.saved.Some? ==> h.saved.value == RegisteredFrom(fields)
    ensures h.reply.Sent?
    ensures h.reply.status == 400 <==> AuthMiddleware(headers, verify).Proceed? && !HasRequiredFields(fields)
    ensures h.reply.status == 400 ==> h.reply.body == Error(MissingMediaFields)
    ensures h.reply.status == 201 <==> h.saved.Some? && store.Written?
    ensures h.reply.status == 201 ==> h.reply.body == Data(Registered(MediaRegistered, h.saved.value))
    ensures h.saved.Some? && store.WriteThrew? ==> h.reply == Sent(500, None, Error(RegisterFailed))
  {
    match AuthMiddleware(headers, verify)
    case Halt(status, message) => RegisterHandled(SendJson(status, Error(message)), None)
    case Proceed(_) =>
      if !HasRequiredFields(fields) then RegisterHandled(SendJson(400, Error(MissingMediaFields)), None)
      else
        var media := RegisteredFrom(fields);
        match store
        case Written => RegisterHandled(SendJson(201, Data(Registered(MediaRegistered, media))), Some(media))
        case WriteThrew(_) => RegisterHandled(SendJson(500, Error(RegisterFailed)), Some(media))
  }

  /** Missing any one of the four required fields is 400 without a save; "" counts as missing. */
  lemma EachFieldRequired(headers: map<string, string>, verify: string -> Verdict, fields: map<string, JsValue>,
                          key: string, store: Write)
    requires AuthMiddleware(headers, verify).Proceed?
    requires key in ["url", "title", "type", "username"]
    ensures Register(headers, verify, fields[key := Str("")], store)
            == RegisterHandled(Sent(400, None, Error(MissingMediaFields)), None)
    ensures Register(headers, verify, fields - {key}, store)
            == RegisterHandled(Sent(400, None, Error(MissingMediaFields)), None)
  {
    assert Get(fields[key := Str("")], key) == Str("");
    assert Get(fields - {key}, key) == Undefined;
  }

  /** A store failure hides its cause behind a fixed message. */
  lemma RegisterFailureIsGeneric(headers: map<string, string>, verify: string -> Verdict,
                                 fields: map<string, JsValue>, m1: string, m2: string)
    ensures Register(headers, verify, fields, WriteThrew(m1)) == Register(headers, verify, fields, WriteThrew(m2))
  {
  }

  // ---------------------------------------------------------------------------
  // GET /api/media/:id
  // ---------------------------------------------------------------------------

  /** A stored media document as far as the owner check is concerned. */
  datatype StoredMedia = StoredMedia(username: JsValue, views: int, rest: map<string, JsValue>)

  const NotFoundMessage: string := "No encontrado"
  const Forbidden: string := "Sin permiso"

  /** `app.get('/api/media/:id', authMiddleware, handler)` with `lookup` standing for
      `Media.findById(req.params.id)`. */
  function OwnedMedia(headers: map<string, string>, verify: string -> Verdict, lookup: Lookup<StoredMedia>)
    : (r: Reply<StoredMedia>)
    ensures r.Sent?
    ensures r.status == 200 <==>
              AuthMiddleware(headers, verify).Proceed? && lookup.Found?
              && StrictEquals(lookup.doc.username, Get(AuthMiddleware(headers, verify).user, "username"))
    ensures r.status == 200 ==> r.body == Data(lookup.doc)
    ensures r.status == 404 <==> AuthMiddleware(headers, verify).Proceed? && lookup.NotFound?
    ensures r.status == 403 && r.body == Error(Forbidden) <==>
              AuthMiddleware(headers, verify).Proceed? && lookup.Found?
              && !StrictEquals(lookup.doc.username, Get(AuthMiddleware(headers, verify).user, "username"))
    ensures r.status == 500 <==> AuthMiddleware(headers, verify).Proceed? && lookup.LookupThrew?
    ensures r.status == 500 ==> r.body == Error(lookup.message)
  {
    match AuthMiddleware(headers, verify)
    case Halt(status, message) => SendJson(status, Error(message))
    case Proceed(user) =>
      match lookup
      case LookupThrew(m) => SendJson(500, Error(m))
      case NotFound => SendJson(404, Error(NotFoundMessage))
      case Found(media) =>
        if !StrictEquals(media.username, Get(user, "username")) then SendJson(403, Error(Forbidden))
        else SendJson(200, Data(media))
  }

  /** A document is returned only to a caller whose token payload carries the same `username`
      under `===`, so a `username` that is an array or an object matches no one. */
  lemma OnlyOwnerSees(headers: map<string, string>, verify: string -> Verdict, lookup: Lookup<StoredMedia>)
    requires OwnedMedia(headers, verify, lookup).status == 200
    ensures AuthMiddleware(headers, verify).Proceed?
    ensures lookup.Found? && lookup.doc.username == Get(AuthMiddleware(headers, verify).user, "username")
    ensures !lookup.doc.username.Arr? && !lookup.doc.username.Obj?
  {
  }
}

=== FILE: http.dfy ===
/** The response side of every handler (`api/_utils.ts`): a handler either writes exactly one
    JSON response, with an optional `Allow` header, or leaves the request unanswered (an
    exception escaping an async callback). */
module Http {
  import opened Js

  /** A JSON body: the `{error}` shape every failure uses, or a handler-specific payload. */
  datatype Body<+B> = Error(error: string) | Data(value: B)

  /** Which build of a Vercel function runs: the TypeScript source or the compiled JavaScript
      in `dist/`. */
  datatype Build = SourceBuild | DistBuild

  datatype Reply<+B> =
    | Sent(status: int, allow: Option<seq<string>>, body: Body<B>)
    | Unanswered

  const MethodNotAllowed: string := "Method Not Allowed"

  /** `sendJSON(res, status, data)`: the status and the body, no other header. */
  function SendJson<B>(status: int, body: Body<B>): Reply<B> {
    Sent(status, None, body)
  }

  /** `methodGuard(req, res, allowed)`. `None` is the `true` return (nothing written); `Some(r)`
      is the `false` return together with the response it wrote. */
  function MethodGuard<B>(verb: JsValue, allowed: seq<string>): (r: Option<Reply<B>>)
    ensures r.None? <==> (verb.Str? && verb.s != "" && verb.s in allowed) || (!Truthy(verb) && "" in allowed)
    ensures r.Some? ==> r.value.Sent? && r.value.status == 405 && r.value.allow == Some(allowed)
                        && r.value.body == Error(MethodNotAllowed)
  {
    var m := Or(verb, Str(""));
    if !Includes(allowed, m) then Some(Sent(405, Some(allowed), Error(MethodNotAllowed))) else None
  }

  /** An absent method is treated as the empty string. */
  lemma AbsentMethodIsEmpty<B>(allowed: seq<string>)
    ensures MethodGuard<B>(Undefined, allowed) == MethodGuard<B>(Str(""), allowed)
    ensures MethodGuard<B>(Undefined, allowed).None? <==> "" in allowed
  {
  }

  /** With a non-empty allow list of methods, a request passes iff its method is listed; a
      request that passes gets no response from the guard. */
  lemma MethodGuardMembership<B>(m: string, allowed: seq<string>)
    requires "" !in allowed
    ensures MethodGuard<B>(Str(m), allowed).None? <==> m in allowed
    ensures m !in allowed ==> MethodGuard<B>(Str(m), allowed) == Some(Sent(405, Some(allowed), Error(MethodNotAllowed)))
  {
  }
}

=== FILE: js.dfy ===
/** The slice of JavaScript value semantics the backend's decision logic relies on:
    truthiness (`||`), nullishness (`??`), `String.prototype.split` with a one-character
    separator, `trim`, ASCII `toLowerCase`, `startsWith`, strict equality and the string
    form a template literal gives a value. */
module Js {

  datatype Option<+T> = None | Some(value: T)

  /** A JavaScript value as it reaches a handler. Numbers are integers (NaN and fractions are
      not modelled); an object is represented by the string its `toString()` returns. */
  datatype JsValue =
    | Undefined
    | Null
    | Bool(b: bool)
    | Num(n: int)
    | Str(s: string)
    | Arr(items: seq<JsValue>)
    | Obj(repr: string)

  /** `!!v`: the values `||`, `&&`, `if` and `!` treat as true. */
  predicate Truthy(v: JsValue) {
    match v
    case Undefined => false
    case Null => false
    case Bool(b) => b
    case Num(n) => n != 0
    case Str(s) => s != ""
    case Arr(_) => true
    case Obj(_) => true
  }

  /** The values `??` and `?.` treat as absent. */
  predicate Nullish(v: JsValue) {
    v.Undefined? || v.Null?
  }

  /** `a || b` */
  function Or(a: JsValue, b: JsValue): JsValue {
    if Truthy(a) then a else b
  }

  /** `a ?? b` */
  function Coalesce(a: JsValue, b: JsValue): JsValue {
    if Nullish(a) then b else a
  }

  /** `obj[key]` on a plain object: a missing key reads as `undefined`. */
  function Get(obj: map<string, JsValue>, key: string): JsValue {
    if key in obj then obj[key] else Undefined
  }

  /** `xs[i]` on an array of strings: out of range reads as `undefined`. */
  function At(xs: seq<string>, i: nat): JsValue {
    if i < |xs| then Str(xs[i]) else Undefined
  }

  /** `vs[0] || vs[1] || ... || vs[n-1]`: the first truthy operand, or the last operand. */
  function OrChain(vs: seq<JsValue>): (r: JsValue)
    requires |vs| > 0
    ensures Truthy(r) <==> exists i :: 0 <= i < |vs| && Truthy(vs[i])
    ensures Truthy(r) ==> exists i :: 0 <= i < |vs| && vs[i] == r && forall j :: 0 <= j < i ==> !Truthy(vs[j])
    ensures !Truthy(r) ==> r == vs[|vs| - 1]
  {
    if |vs| == 1 then vs[0]
    else if Truthy(vs[0]) then vs[0]
    else
      var rest := OrChain(vs[1..]);
      assert forall i :: 1 <= i < |vs| ==> vs[i] == vs[1..][i - 1];
      rest
  }

  /** A destructuring default, `const { x = d } = obj`: only `undefined` is replaced. */
  function Default(v: JsValue, d: JsValue): JsValue {
    if v.Undefined? then d else v
  }

  /** `a === b`. Two array or object operands are distinct references here, so never equal. */
  predicate StrictEquals(a: JsValue, b: JsValue) {
    match (a, b)
    case (Undefined, Undefined) => true
    case (Null, Null) => true
    case (Bool(x), Bool(y)) => x == y
    case (Num(x), Num(y)) => x == y
    case (Str(x), Str(y)) => x == y
    case _ => false
  }

  /** `arr.includes(v)` for an array of strings (SameValueZero: only a string can match). */
  predicate Includes(arr: seq<string>, v: JsValue) {
    v.Str? && v.s in arr
  }

  // ---------------------------------------------------------------------------
  // String conversion (`${v}` and `String(v)`)
  // ---------------------------------------------------------------------------

  function DigitChar(d: nat): char
    requires d < 10
  {
    "0123456789"[d]
  }

  function NatToDecimal(n: nat): string
    decreases n
  {
    if n < 10 then [DigitChar(n)] else NatToDecimal(n / 10) + [DigitChar(n % 10)]
  }

  /** The string a template literal produces for `v`. Inside an array, `undefined` and `null`
      elements print as the empty string, as `Array.prototype.join` does. */
  function Display(v: JsValue): string {
    match v
    case Undefined => "undefined"
    case Null => "null"
    case Bool(b) => if b then "true" else "false"
    case Num(n) => if n < 0 then "-" + NatToDecimal(-n) else NatToDecimal(n)
    case Str(s) => s
    case Arr(items) => DisplayItems(items)
    case Obj(repr) => repr
  }

  function DisplayItems(items: seq<JsValue>): string {
    if |items| == 0 then ""
    else
      var head := if Nullish(items[0]) then "" else Display(items[0]);
      if |items| == 1 then head else head + "," + DisplayItems(items[1..])
  }

  // ---------------------------------------------------------------------------
  // split / join
  // ---------------------------------------------------------------------------

  /** `s.split(sep)` for a one-character separator: empty segments are kept, and the
      empty string splits into one empty segment. */
  function Split(s: string, sep: char): (parts: seq<string>)
    ensures |parts| >= 1
    decreases |s|
  {
    if |s| == 0 then [""]
    else if s[0] == sep then [""] + Split(s[1..], sep)
    else
      var rest := Split(s[1..], sep);
      [[s[0]] + rest[0]] + rest[1..]
  }

  /** `parts.join(sep)` */
  function Join(parts: seq<string>, sep: char): string
    requires |parts| >= 1
  {
    if |parts| == 1 then parts[0] else parts[0] + [sep] + Join(parts[1..], sep)
  }

  /** Number of occurrences of `c` in `s`. */
  function Count(s: string, c: char): nat {
    if |s| == 0 then 0 else (if s[0] == c then 1 else 0) + Count(s[1..], c)
  }

  /** A character occurs exactly when its count is positive. */
  lemma {:induction false} CountPositive(s: string, c: char)
    ensures c in s <==> Count(s, c) > 0
    decreases |s|
  {
    if |s| > 0 {
      CountPositive(s[1..], c);
      assert c in s <==> s[0] == c || c in s[1..];
    }
  }

  /** Joining the segments back with the separator gives the original string. */
  lemma {:induction false} JoinSplit(s: string, sep: char)
    ensures Join(Split(s, sep), sep) == s
    decreases |s|
  {
    if |s| == 0 {
    } else if s[0] == sep {
      JoinSplit(s[1..], sep);
      var rest := Split(s[1..], sep);
      assert Split(s, sep) == [""] + rest;
      assert ([""] + rest)[1..] == rest;
      assert s == [sep] + s[1..];
    } else {
      var rest := Split(s[1..], sep);
      JoinSplit(s[1..], sep);
      assert Split(s, sep) == [[s[0]] + rest[0]] + rest[1..];
      JoinExtendHead(s[0], rest, sep);
      assert s == [s[0]] + s[1..];
    }
  }

  /** Prepending a character to the first part prepends it to the join. */
  lemma JoinExtendHead(c: char, parts: seq<string>, sep: char)
    requires |parts| >= 1
    ensures Join([[c] + parts[0]] + parts[1..], sep) == [c] + Join(parts, sep)
  {
    var ext := [[c] + parts[0]] + parts[1..];
    assert ext[1..] == parts[1..];
  }

  /** No segment contains the separator. */
  lemma {:induction false} SplitSegmentsFree(s: string, sep: char)
    ensures forall i :: 0 <= i < |Split(s, sep)| ==> sep !in Split(s, sep)[i]
    decreases |s|
  {
    if |s| > 0 {
      SplitSegmentsFree(s[1..], sep);
    }
  }

  /** There is one more segment than there are separators. */
  lemma {:induction false} SplitLength(s: string, sep: char)
    ensures |Split(s, sep)| == Count(s, sep) + 1
    decreases |s|
  {
    if |s| > 0 {
      SplitLength(s[1..], sep);
    }
  }

  /** Splitting a join of separator-free parts gives back the parts. */
  lemma {:induction false} SplitJoin(parts: seq<string>, sep: char)
    requires |parts| >= 1
    requires forall i :: 0 <= i < |parts| ==> sep !in parts[i]
    ensures Split(Join(parts, sep), sep) == parts
    decreases |parts|
  {
    if |parts| == 1 {
      SplitNoSeparator(parts[0], sep);
    } else {
      SplitJoin(parts[1..], sep);
      SplitPrefix(parts[0], Join(parts[1..], sep), sep);
    }
  }

  lemma {:induction false} SplitNoSeparator(s: string, sep: char)
    requires sep !in s
    ensures Split(s, sep) == [s]
    decreases |s|
  {
    if |s| > 0 {
      SplitNoSeparator(s[1..], sep);
      assert s == [s[0]] + s[1..];
    }
  }

  /** A separator-free prefix followed by the separator becomes the first segment. */
  lemma {:induction false} SplitPrefix(a: string, b: string, sep: char)
    requires sep !in a
    ensures Split(a + [sep] + b, sep) == [a] + Split(b, sep)
    decreases |a|
  {
    var s := a + [sep] + b;
    if |a| == 0 {
      assert s[1..] == b;
    } else {
      SplitPrefix(a[1..], b, sep);
      assert s[1..] == a[1..] + [sep] + b;
      assert a == [a[0]] + a[1..];
    }
  }

  /** A string with at least two segments is its first segment, the separator, its second
      segment, and then either nothing or the separator and the remaining segments. */
  lemma SplitTwoHeads(s: string, sep: char)
    requires |Split(s, sep)| >= 2
    ensures exists rest: string :: s == Split(s, sep)[0] + [sep] + Split(s, sep)[1] + rest
                                   && (rest == "" || rest[0] == sep)
  {
    var parts := Split(s, sep);
    JoinSplit(s, sep);
    var rest := if |parts| == 2 then "" else [sep] + Join(parts[2..], sep);
    var tail := parts[1..];
    if |parts| == 2 {
      assert Join(tail, sep) == parts[1];
    } else {
      assert tail[1..] == parts[2..];
      assert Join(tail, sep) == parts[1] + [sep] + Join(parts[2..], sep);
    }
    assert s == parts[0] + [sep] + parts[1] + rest;
  }

  /** `b` starts right after the first separator of `s` and runs to the next one or the end. */
  ghost predicate FollowsFirstSeparator(s: string, sep: char, b: string) {
    exists first: string, rest: string ::
      s == first + [sep] + b + rest && sep !in first && (rest == "" || [sep] <= rest)
  }

  /** `s.split(sep)[1]` exists exactly when `s` contains the separator. */
  lemma HasSecondSegment(s: string, sep: char)
    ensures |Split(s, sep)| >= 2 <==> sep in s
  {
    SplitLength(s, sep);
    CountPositive(s, sep);
  }

  /** `s.split(sep)[1]` is the separator-free text between the first separator and the next
      one (or the end). */
  lemma SecondSegment(s: string, sep: char)
    requires sep in s
    ensures |Split(s, sep)| >= 2
    ensures sep !in Split(s, sep)[1]
    ensures FollowsFirstSeparator(s, sep, Split(s, sep)[1])
  {
    HasSecondSegment(s, sep);
    var parts := Split(s, sep);
    SplitSegmentsFree(s, sep);
    assert sep !in parts[0] && sep !in parts[1];
    SplitTwoHeads(s, sep);
    var rest: string :| s == parts[0] + [sep] + parts[1] + rest && (rest == "" || rest[0] == sep);
    Witness(s, sep, parts[0], parts[1], rest);
  }

  lemma Witness(s: string, sep: char, first: string, b: string, rest: string)
    requires s == first + [sep] + b + rest && sep !in first && (rest == "" || rest[0] == sep)
    ensures FollowsFirstSeparator(s, sep, b)
  {
    assert rest == "" || [sep] <= rest;
  }

  /** Conversely, the first two segments of `a + sep + b + rest` are `a` and `b` when neither
      contains the separator and `rest` is empty or starts with it. */
  lemma SplitOfShape(a: string, b: string, rest: string, sep: char)
    requires sep !in a && sep !in b
    requires rest == "" || rest[0] == sep
    ensures |Split(a + [sep] + b + rest, sep)| >= 2
    ensures Split(a + [sep] + b + rest, sep)[0] == a
    ensures Split(a + [sep] + b + rest, sep)[1] == b
  {
    if rest == "" {
      assert a + [sep] + b + rest == a + [sep] + b;
      SplitPrefix(a, b, sep);
      SplitNoSeparator(b, sep);
    } else {
      assert a + [sep] + b + rest == a + [sep] + (b + [sep] + rest[1..]);
      SplitPrefix(a, b + [sep] + rest[1..], sep);
      SplitPrefix(b, rest[1..], sep);
    }
  }

  // ---------------------------------------------------------------------------
  // trim, toLowerCase, startsWith
  // ---------------------------------------------------------------------------

  /** The WhiteSpace and LineTerminator code points `String.prototype.trim` removes. */
  predicate IsSpace(c: char) {
    c == '\t' || c == '\n' || c == '\U{000B}' || c == '\U{000C}' || c == '\r' || c == ' '
    || c == '\U{00A0}' || c == '\U{1680}' || ('\U{2000}' <= c <= '\U{200A}')
    || c == '\U{2028}' || c == '\U{2029}' || c == '\U{202F}' || c == '\U{205F}'
    || c == '\U{3000}' || c == '\U{FEFF}'
  }

  function TrimStart(s: string): string
    decreases |s|
  {
    if |s| > 0 && IsSpace(s[0]) then TrimStart(s[1..]) else s
  }

  function TrimEnd(s: string): string
    decreases |s|
  {
    if |s| > 0 && IsSpace(s[|s| - 1]) then TrimEnd(s[..|s| - 1]) else s
  }

  /** `s.trim()` */
  function Trim(s: string): string {
    TrimEnd(TrimStart(s))
  }

  /** `s.trim()` removes only white space, from both ends, and leaves none at either end. */
  lemma {:induction false} TrimIsInfix(s: string)
    ensures exists i, j :: 0 <= i <= j <= |s| && Trim(s) == s[i..j]
              && (forall k :: 0 <= k < i ==> IsSpace(s[k]))
              && (forall k :: j <= k < |s| ==> IsSpace(s[k]))
    ensures |Trim(s)| > 0 ==> !IsSpace(Trim(s)[0]) && !IsSpace(Trim(s)[|Trim(s)| - 1])
  {
    var i := TrimStartIndex(s);
    var t := s[i..];
    var j := TrimEndIndex(t);
    assert Trim(s) == s[i..i + j];
    assert forall k :: i + j <= k < |s| ==> s[k] == t[k - i];
  }

  lemma {:induction false} TrimStartIndex(s: string) returns (i: nat)
    ensures i <= |s| && TrimStart(s) == s[i..]
    ensures forall k :: 0 <= k < i ==> IsSpace(s[k])
    ensures i < |s| ==> !IsSpace(s[i])
    decreases |s|
  {
    if |s| > 0 && IsSpace(s[0]) {
      var i' := TrimStartIndex(s[1..]);
      i := i' + 1;
      assert s[1..][i'..] == s[i..];
    } else {
      i := 0;
    }
  }

  lemma {:induction false} TrimEndIndex(s: string) returns (j: nat)
    ensures j <= |s| && TrimEnd(s) == s[..j]
    ensures forall k :: j <= k < |s| ==> IsSpace(s[k])
    ensures j > 0 ==> !IsSpace(s[j - 1])
    decreases |s|
  {
    if |s| > 0 && IsSpace(s[|s| - 1]) {
      j := TrimEndIndex(s[..|s| - 1]);
      assert s[..|s| - 1][..j] == s[..j];
    } else {
      j := |s|;
    }
  }

  /** A string without white space at either end is its own trim. */
  lemma TrimmedIsFixed(s: string)
    requires |s| > 0 ==> !IsSpace(s[0]) && !IsSpace(s[|s| - 1])
    ensures Trim(s) == s
  {
  }

  /** `c.toLowerCase()` restricted to ASCII. For the only comparison the backend makes
      (against "bearer") this is exact: no non-ASCII code point lower-cases to b, e, a or r. */
  function LowerChar(c: char): char {
    if 'A' <= c <= 'Z' then (c as int + 32) as char else c
  }

  function ToLower(s: string): (r: string)
    ensures |r| == |s|
    ensures forall i :: 0 <= i < |s| ==> r[i] == LowerChar(s[i])
  {
    if |s| == 0 then "" else [LowerChar(s[0])] + ToLower(s[1..])
  }

  /** `m || fallback` for a message string. */
  function MessageOr(m: string, fallback: string): string {
    if m != "" then m else fallback
  }

  /** `s.startsWith(p)` */
  predicate StartsWith(s: string, p: string) {
    p <= s
  }
}

=== FILE: media_api.dfy ===
/** The media ingestion endpoint (`api/media/index.ts` and its compiled variant
    `dist/api/media/index.js`): GET lists the records, POST authenticates the caller, parses
    the multipart form, picks one upload source, hands it to the media provider and records the
    provider's result. The two builds differ only in how they default `upload_preset` and
    `resource_type`. */
module MediaApi {
  import opened Js
  import opened Oracles
  import opened Http
  import opened AuthGuard

  datatype MediaRequest = MediaRequest(verb: JsValue, headers: map<string, string>)

  /** What formidable's `form.parse` hands the callback: an error, or the fields and files. */
  datatype Form = Malformed | Parsed(fields: map<string, JsValue>, files: map<string, JsValue>)

  /** A `Media` document (`models/Media.ts`). */
  datatype MediaRecord = MediaRecord(
    url: string,
    publicId: string,
    resourceType: string,
    format: string,
    bytes: int,
    createdBy: JsValue)

  datatype MediaBody = Listing(items: seq<MediaRecord>) | Created(item: MediaRecord, upload: UploadResult)

  /** `upload_stream` fed by a pipe, or `upload(url)` which the provider fetches itself. */
  datatype Mode = Streaming | Direct

  /** The three accepted request shapes. `InlineData` carries the base64 text handed to the
      (unmodelled) decoder. */
  datatype Source = FilePart(file: JsValue) | RemoteUrl(url: JsValue) | InlineData(base64: string)

  /** The upload options object; a JavaScript `undefined` option is `Undefined`. */
  datatype Options = Options(folder: string, uploadPreset: JsValue, resourceType: JsValue)

  datatype ProviderCall = ProviderCall(mode: Mode, source: Source, options: Options)

  /** What the request did besides answering: whether `requireAuth` and `form.parse` ran, the
      provider call it made, and the record it persisted. */
  datatype Trace = Trace(authChecked: bool, formParsed: bool, call: Option<ProviderCall>, created: Option<MediaRecord>)

  datatype Handled = Handled(reply: Reply<MediaBody>, trace: Trace)

  const Allowed: seq<string> := ["GET", "POST"]
  const FileAliases: seq<string> := ["file", "upload", "image", "media"]
  const ValidResourceTypes: seq<string> := ["raw", "auto", "image", "video"]
  const MediaFolder: string := "media"
  const InvalidForm: string := "Formulario inválido"
  const NoSourceMessage: string := "Envía 'file' multipart, 'url' o 'dataUrl'"
  const StreamFailed: string := "Fallo de subida"
  const UrlFailed: string := "Error al subir desde URL"
  /** The message of the TypeError `Buffer.from(undefined, "base64")` throws. */
  const BufferFromUndefined: string :=
    "The first argument must be of type string or an instance of Buffer, ArrayBuffer, or Array or an Array-like Object. Received undefined"

  // ---------------------------------------------------------------------------
  // Choosing the upload source
  // ---------------------------------------------------------------------------

  /** `files.file`, `files.upload`, `files.image`, `files.media`, in that order. */
  function AliasValues(files: map<string, JsValue>): (vs: seq<JsValue>)
    ensures |vs| == |FileAliases|
    ensures forall i :: 0 <= i < |vs| ==> vs[i] == Get(files, FileAliases[i])
  {
    [Get(files, "file"), Get(files, "upload"), Get(files, "image"), Get(files, "media")]
  }

  predicate HasFile(files: map<string, JsValue>) {
    exists i :: 0 <= i < |FileAliases| && Truthy(Get(files, FileAliases[i]))
  }

  /** `dataUrl` is a string that starts with "data:" and contains a comma. */
  predicate WellFormedDataUrl(dataUrl: JsValue) {
    dataUrl.Str? && StartsWith(dataUrl.s, "data:") && ',' in dataUrl.s
  }

  /** `files.file || files.upload || files.image || files.media`: the first alias present. */
  function FirstFile(files: map<string, JsValue>): (f: JsValue)
    ensures Truthy(f) <==> HasFile(files)
    ensures Truthy(f) ==>
              exists i :: 0 <= i < |FileAliases| && f == Get(files, FileAliases[i])
                          && forall j :: 0 <= j < i ==> !Truthy(Get(files, FileAliases[j]))
  {
    OrChain(AliasValues(files))
  }

  /** How the base64 branch reads `dataUrl`: the text between its first and second comma, no
      "data:" URL, a "data:" URL without comma (`split(",")[1]` is `undefined`), or a value
      that is neither nullish nor a string (which has no `startsWith`). */
  datatype DataUrl = Payload(base64: string) | NotDataUrl | WithoutComma | NotAString

  function ReadDataUrl(dataUrl: JsValue): (d: DataUrl)
    ensures d.Payload? <==> WellFormedDataUrl(dataUrl)
    ensures d.Payload? ==> ',' !in d.base64 && FollowsFirstSeparator(dataUrl.s, ',', d.base64)
    ensures d.Payload? ==> |Split(dataUrl.s, ',')| >= 2 && d.base64 == Split(dataUrl.s, ',')[1]
    ensures d.WithoutComma? <==> dataUrl.Str? && StartsWith(dataUrl.s, "data:") && ',' !in dataUrl.s
    ensures d.NotAString? <==> !Nullish(dataUrl) && !dataUrl.Str?
  {
    match dataUrl
    case Undefined => NotDataUrl
    case Null => NotDataUrl
    case Str(s) =>
      if !StartsWith(s, "data:") then NotDataUrl
      else
        HasSecondSegment(s, ',');
        (match At(Split(s, ','), 1)
         case Str(b) =>
           SecondSegment(s, ',');
           assert b == Split(s, ',')[1];
           Payload(b)
         case _ => WithoutComma)
    case _ => NotAString
  }

  /** The result of the three-way probe: a source, none of the three, a "data:" URL whose
      `split(",")[1]` is `undefined` (so `Buffer.from` throws), or a `dataUrl` that is neither
      nullish nor a string (so `dataUrl?.startsWith` throws outside the handler's `try`). */
  datatype Choice = Use(source: Source) | NoSource | DataUrlWithoutComma | DataUrlNotString

  /** Precedence: a file under any alias, then a truthy `url`, then a "data:" `dataUrl`. */
  function ChooseSource(fields: map<string, JsValue>, files: map<string, JsValue>): (ch: Choice)
    ensures ch.Use? && ch.source.FilePart? <==> HasFile(files)
    ensures ch.Use? && ch.source.FilePart? ==> ch.source.file == FirstFile(files)
    ensures ch.Use? && ch.source.RemoteUrl? <==> !HasFile(files) && Truthy(Get(fields, "url"))
    ensures ch.Use? && ch.source.RemoteUrl? ==> ch.source.url == Get(fields, "url")
    ensures ch.Use? && ch.source.InlineData? <==>
              !HasFile(files) && !Truthy(Get(fields, "url")) && WellFormedDataUrl(Get(fields, "dataUrl"))
    ensures ch.Use? && ch.source.InlineData? ==> ReadDataUrl(Get(fields, "dataUrl")) == Payload(ch.source.base64)
    ensures ch.NoSource? <==>
              !HasFile(files) && !Truthy(Get(fields, "url")) && ReadDataUrl(Get(fields, "dataUrl")).NotDataUrl?
    ensures ch.DataUrlWithoutComma? <==>
              !HasFile(files) && !Truthy(Get(fields, "url")) && ReadDataUrl(Get(fields, "dataUrl")).WithoutComma?
  {
    var file := FirstFile(files);
    if Truthy(file) then Use(FilePart(file))
    else
      var url := Get(fields, "url");
      if Truthy(url) then Use(RemoteUrl(url))
      else
        match ReadDataUrl(Get(fields, "dataUrl"))
        case Payload(b) => Use(InlineData(b))
        case NotDataUrl => NoSource
        case WithoutComma => DataUrlWithoutComma
        case NotAString => DataUrlNotString
  }

  // ---------------------------------------------------------------------------
  // Upload options
  // ---------------------------------------------------------------------------

  /** `Array.isArray(v) ? v[0] : ...` picks the first element, `undefined` for `[]`. */
  function FirstElement(items: seq<JsValue>): JsValue {
    if |items| > 0 then items[0] else Undefined
  }

  /** Options of `api/media/index.ts`: `resource_type` is the field if truthy, else "auto", not
      validated; `upload_preset` is the field if truthy, else the environment default, and is
      sent as `undefined` when that is falsy too. */
  function SourceOptions(fields: map<string, JsValue>, envPreset: JsValue): (o: Options)
    ensures o.folder == MediaFolder
    ensures Truthy(Get(fields, "resource_type")) ==> o.resourceType == Get(fields, "resource_type")
    ensures !Truthy(Get(fields, "resource_type")) ==> o.resourceType == Str("auto")
    ensures Truthy(o.uploadPreset) || o.uploadPreset == Undefined
    ensures Truthy(Get(fields, "upload_preset")) ==> o.uploadPreset == Get(fields, "upload_preset")
    ensures !Truthy(Get(fields, "upload_preset")) ==> o.uploadPreset == Or(envPreset, Undefined)
  {
    var preset := Or(Get(fields, "upload_preset"), envPreset);
    var resourceType := Or(Get(fields, "resource_type"), Str("auto"));
    Options(MediaFolder, Or(preset, Undefined), resourceType)
  }

  /** Options of `dist/api/media/index.js`: an array field contributes its first element;
      `upload_preset` falls back with `??` (so only a nullish field takes the environment
      default), and `resource_type` is coerced into the allowed set with "auto" as default. */
  function DistOptions(fields: map<string, JsValue>, envPreset: JsValue): (o: Options)
    ensures o.folder == MediaFolder
    ensures o.resourceType.Str? && o.resourceType.s in ValidResourceTypes
    ensures Includes(ValidResourceTypes, Get(fields, "resource_type")) ==> o.resourceType == Get(fields, "resource_type")
    ensures Nullish(Get(fields, "resource_type")) ==> o.resourceType == Str("auto")
    ensures (!Get(fields, "resource_type").Arr? && !Includes(ValidResourceTypes, Get(fields, "resource_type")))
              ==> o.resourceType == Str("auto")
    ensures Get(fields, "resource_type").Arr? ==>
              o.resourceType == (if Includes(ValidResourceTypes, FirstElement(Get(fields, "resource_type").items))
                                 then FirstElement(Get(fields, "resource_type").items) else Str("auto"))
    ensures Truthy(o.uploadPreset) || o.uploadPreset == Undefined
    ensures Get(fields, "upload_preset").Arr? ==>
              o.uploadPreset == Or(FirstElement(Get(fields, "upload_preset").items), Undefined)
    ensures Nullish(Get(fields, "upload_preset")) ==> o.uploadPreset == Or(envPreset, Undefined)
    ensures (!Get(fields, "upload_preset").Arr? && !Nullish(Get(fields, "upload_preset")))
              ==> o.uploadPreset == Or(Get(fields, "upload_preset"), Undefined)
  {
    var presetField := Get(fields, "upload_preset");
    var preset :=
      if presetField.Arr? then FirstElement(presetField.items)
      else Coalesce(Coalesce(presetField, envPreset), Str(""));
    var typeField := Get(fields, "resource_type");
    var candidate :=
      if typeField.Arr? then FirstElement(typeField.items) else Coalesce(typeField, Str("auto"));
    var resourceType := if Includes(ValidResourceTypes, candidate) then candidate else Str("auto");
    Options(MediaFolder, Or(preset, Undefined), resourceType)
  }

  function OptionsFor(build: Build, fields: map<string, JsValue>, envPreset: JsValue): Options {
    match build
    case SourceBuild => SourceOptions(fields, envPreset)
    case DistBuild => DistOptions(fields, envPreset)
  }

  // ---------------------------------------------------------------------------
  // Upload and record
  // ---------------------------------------------------------------------------

  /** The document `Media.create` is given: the provider's result and the caller's id. */
  function RecordOf(r: UploadResult, userId: JsValue): (m: MediaRecord)
    ensures m.url == r.secureUrl && m.publicId == r.publicId && m.resourceType == r.resourceType
    ensures m.format == r.format && m.bytes == r.bytes && m.createdBy == userId
  {
    MediaRecord(r.secureUrl, r.publicId, r.resourceType, r.format, r.bytes, userId)
  }

  /** What happens after the source is known: the reply, the provider call and the record. */
  datatype Outcome = Outcome(reply: Reply<MediaBody>, call: Option<ProviderCall>, created: Option<MediaRecord>)

  /** The three upload branches and the 400/500 fall-throughs of the form callback. */
  function Ingest(choice: Choice, opts: Options, userId: JsValue, provider: Upload, store: Write): (out: Outcome)
    ensures out.call.Some? <==> choice.Use?
    ensures out.call.Some? ==> out.call.value.source == choice.source && out.call.value.options == opts
    ensures out.call.Some? ==> (out.call.value.mode == Direct <==> choice.source.RemoteUrl?)
    ensures out.created.Some? <==> choice.Use? && provider.Uploaded? && store.Written?
    ensures out.created.Some? ==> out.created.value == RecordOf(provider.result, userId)
                                  && out.reply == Sent(201, None, Data(Created(out.created.value, provider.result)))
    ensures out.reply.Sent? && out.reply.status == 201 ==> out.created.Some?
    ensures choice.NoSource? ==> out == Outcome(Sent(400, None, Error(NoSourceMessage)), None, None)
    ensures choice.DataUrlWithoutComma? ==> out == Outcome(Sent(500, None, Error(BufferFromUndefined)), None, None)
    ensures choice.DataUrlNotString? ==> out == Outcome(Unanswered, None, None)
  {
    match choice
    case NoSource => Outcome(SendJson(400, Error(NoSourceMessage)), None, None)
    case DataUrlWithoutComma => Outcome(SendJson(500, Error(BufferFromUndefined)), None, None)
    case DataUrlNotString => Outcome(Unanswered, None, None)
    case Use(source) =>
      var mode := if source.RemoteUrl? then Direct else Streaming;
      var call := Some(ProviderCall(mode, source, opts));
      match provider
      case UploadFailed(m) =>
        var fallback := if mode == Direct then UrlFailed else StreamFailed;
        Outcome(SendJson(500, Error(MessageOr(m, fallback))), call, None)
      case Uploaded(r) =>
        var record := RecordOf(r, userId);
        match store
        case Written => Outcome(SendJson(201, Data(Created(record, r))), call, Some(record))
        case WriteThrew(m) =>
          // In the streaming callback `Media.create` is awaited outside any `try`: the
          // rejection escapes and no response is written. The URL branch catches it.
          if mode == Direct then Outcome(SendJson(500, Error(MessageOr(m, UrlFailed))), call, None)
          else Outcome(Unanswered, call, None)
  }

  /** `handler(req, res)` after `dbConnect()` has resolved. `envPreset` is the
      `NEXT_PUBLIC_CLOUDINARY_UPLOAD_PRESET` variable, `verify` the token verifier, `form` the
      parse outcome, `provider` and `store` what the provider and `Media.create` report, and
      `listing` what the GET query reports. */
  function Handle(build: Build, req: MediaRequest, envPreset: JsValue, verify: string -> Verdict,
                  form: Form, provider: Upload, store: Write, listing: Query<MediaRecord>): (h: Handled)
    ensures req.verb == Str("GET") ==> (h.reply.Sent? <==> listing.Listed?)
    ensures req.verb == Str("GET") && listing.Listed? ==> h.reply == Sent(200, None, Data(Listing(listing.items)))
    ensures h.trace.formParsed ==> h.trace.authChecked
    ensures h.trace.call.Some? ==> h.trace.formParsed && h.trace.call.value.options.folder == MediaFolder
    ensures h.trace.created.Some? ==> h.trace.call.Some? && provider.Uploaded?
  {
    if req.verb == Str("GET") then
      match listing
      case Listed(items) => Handled(SendJson(200, Data(Listing(items))), Trace(false, false, None, None))
      // The query is awaited outside any `try`: a rejection leaves the request unanswered.
      case QueryThrew(_) => Handled(Unanswered, Trace(false, false, None, None))
    else if req.verb == Str("POST") then
      match RequireAuth(req.headers, verify)
      case Denied(status, message) => Handled(SendJson(status, Error(message)), Trace(true, false, None, None))
      case Admitted(userId) =>
        match form
        case Malformed => Handled(SendJson(400, Error(InvalidForm)), Trace(true, true, None, None))
        case Parsed(fields, files) =>
          var out := Ingest(ChooseSource(fields, files), OptionsFor(build, fields, envPreset), userId, provider, store);
          Handled(out.reply, Trace(true, true, out.call, out.created))
    else
      match MethodGuard<MediaBody>(req.verb, Allowed)
      case Some(r) => Handled(r, Trace(false, false, None, None))
      case None => Handled(Unanswered, Trace(false, false, None, None)) // not reached: only GET and POST pass the guard
  }
}

=== FILE: media_laws.dfy ===
/** Properties of the media ingestion endpoint (`api/media/index.ts`,
    `dist/api/media/index.js`) that relate whole requests to their replies and effects. */
module MediaLaws {
  import opened Js
  import opened Oracles
  import opened Http
  import opened Bearer
  import opened AuthGuard
  import opened MediaApi

  /** Any method other than GET and POST gets 405 with `Allow: GET, POST` and does nothing else. */
  lemma OtherMethodsRejected(build: Build, req: MediaRequest, env: JsValue, verify: string -> Verdict,
                             form: Form, provider: Upload, store: Write, listing: Query<MediaRecord>)
    requires req.verb != Str("GET") && req.verb != Str("POST")
    ensures Handle(build, req, env, verify, form, provider, store, listing)
            == Handled(Sent(405, Some(["GET", "POST"]), Error(MethodNotAllowed)), Trace(false, false, None, None))
  {
  }

  /** GET answers 200 with the listing, or nothing when the query rejects; it never consults
      the token or the form, and is unaffected by headers, verifier, form, provider or store. */
  lemma GetIgnoresAuthAndForm(build: Build, req1: MediaRequest, req2: MediaRequest, env: JsValue,
                              v1: string -> Verdict, v2: string -> Verdict, f1: Form, f2: Form,
                              p1: Upload, p2: Upload, s1: Write, s2: Write, listing: Query<MediaRecord>)
    requires req1.verb == Str("GET") && req2.verb == Str("GET")
    ensures Handle(build, req1, env, v1, f1, p1, s1, listing)
            == Handle(build, req2, env, v2, f2, p2, s2, listing)
            == Handled(if listing.Listed? then Sent(200, None, Data(Listing(listing.items))) else Unanswered,
                       Trace(false, false, None, None))
  {
  }

  /** A POST whose caller is not admitted gets the guard's 401 and stops there: no form parse,
      no provider call, no record, whatever the form, provider and store would have done. */
  lemma FailedAuthStops(build: Build, req: MediaRequest, env: JsValue, verify: string -> Verdict,
                        f1: Form, f2: Form, p1: Upload, p2: Upload, s1: Write, s2: Write, listing: Query<MediaRecord>)
    requires req.verb == Str("POST") && RequireAuth(req.headers, verify).Denied?
    ensures var h := Handle(build, req, env, verify, f1, p1, s1, listing);
            && h == Handle(build, req, env, verify, f2, p2, s2, listing)
            && h.reply.Sent? && h.reply.status == 401
            && h.reply.body == Error(RequireAuth(req.headers, verify).message)
            && !h.trace.formParsed && h.trace.call.None? && h.trace.created.None?
  {
  }

  /** A form-parse error gives 400 "Formulario inválido" and no provider call. */
  lemma MalformedFormRejected(build: Build, req: MediaRequest, env: JsValue, verify: string -> Verdict,
                              provider: Upload, store: Write, listing: Query<MediaRecord>)
    requires req.verb == Str("POST") && RequireAuth(req.headers, verify).Admitted?
    ensures Handle(build, req, env, verify, Malformed, provider, store, listing)
            == Handled(Sent(400, None, Error(InvalidForm)), Trace(true, true, None, None))
  {
  }

  /** The record invariant, both directions: a `Media` record is created exactly when an
      admitted POST with a parsed form and a usable source is uploaded by the provider and
      acknowledged by the store; it then copies the provider's result, names the caller as
      `createdBy`, and the reply is 201 `{item, upload}`. */
  lemma RecordIffUploaded(build: Build, req: MediaRequest, env: JsValue, verify: string -> Verdict,
                          form: Form, provider: Upload, store: Write, listing: Query<MediaRecord>)
    ensures var h := Handle(build, req, env, verify, form, provider, store, listing);
            h.trace.created.Some? <==>
              && req.verb == Str("POST")
              && RequireAuth(req.headers, verify).Admitted?
              && form.Parsed?
              && ChooseSource(form.fields, form.files).Use?
              && provider.Uploaded?
              && store.Written?
    ensures var h := Handle(build, req, env, verify, form, provider, store, listing);
            h.trace.created.Some? ==>
              && h.trace.created.value == RecordOf(provider.result, RequireAuth(req.headers, verify).userId)
              && h.trace.created.value.createdBy == RequireAuth(req.headers, verify).userId
              && h.reply == Sent(201, None, Data(Created(h.trace.created.value, provider.result)))
  {
  }

  /** A provider error never leaves a record; once the provider was called it gives 500. */
  lemma ProviderErrorNoRecord(build: Build, req: MediaRequest, env: JsValue, verify: string -> Verdict,
                              form: Form, message: string, store: Write, listing: Query<MediaRecord>)
    ensures var h := Handle(build, req, env, verify, form, UploadFailed(message), store, listing);
            && h.trace.created.None?
            && (h.trace.call.Some? ==> h.reply.Sent? && h.reply.status == 500
                                       && h.reply.body.Error? && h.reply.body.error != "")
  {
  }

  /** With no file, no `url` and a `dataUrl` that is absent or a string not starting with
      "data:", the reply is 400 and the provider is never called. */
  lemma NoSourceNoUpload(build: Build, req: MediaRequest, env: JsValue, verify: string -> Verdict,
                         fields: map<string, JsValue>, files: map<string, JsValue>,
                         provider: Upload, store: Write, listing: Query<MediaRecord>)
    requires req.verb == Str("POST") && RequireAuth(req.headers, verify).Admitted?
    requires !HasFile(files) && !Truthy(Get(fields, "url"))
    requires Nullish(Get(fields, "dataUrl"))
             || (Get(fields, "dataUrl").Str? && !StartsWith(Get(fields, "dataUrl").s, "data:"))
    ensures Handle(build, req, env, verify, Parsed(fields, files), provider, store, listing)
            == Handled(Sent(400, None, Error(NoSourceMessage)), Trace(true, true, None, None))
  {
  }

  /** A "data:" URL without a comma reaches `Buffer.from(undefined)`, which throws: 500 with
      that error's message, before any upload stream is opened, whatever else the form holds
      once no file and no `url` take precedence. */
  lemma DataUrlWithoutCommaFails(build: Build, req: MediaRequest, env: JsValue, verify: string -> Verdict,
                                 fields: map<string, JsValue>, files: map<string, JsValue>,
                                 provider: Upload, store: Write, listing: Query<MediaRecord>)
    requires req.verb == Str("POST") && RequireAuth(req.headers, verify).Admitted?
    requires !HasFile(files) && !Truthy(Get(fields, "url"))
    requires Get(fields, "dataUrl").Str? && StartsWith(Get(fields, "dataUrl").s, "data:")
             && ',' !in Get(fields, "dataUrl").s
    ensures Handle(build, req, env, verify, Parsed(fields, files), provider, store, listing)
            == Handled(Sent(500, None, Error(BufferFromUndefined)), Trace(true, true, None, None))
  {
  }

  /** Source precedence as the provider sees it: a file under any alias wins over `url` and
      `dataUrl`, `url` wins over `dataUrl`; files and inline data stream, a URL is fetched
      directly. */
  lemma PrecedenceReachesProvider(build: Build, req: MediaRequest, env: JsValue, verify: string -> Verdict,
                                  fields: map<string, JsValue>, files: map<string, JsValue>,
                                  provider: Upload, store: Write, listing: Query<MediaRecord>)
    requires req.verb == Str("POST") && RequireAuth(req.headers, verify).Admitted?
    ensures var call := Handle(build, req, env, verify, Parsed(fields, files), provider, store, listing).trace.call;
            && (HasFile(files) ==> call.Some? && call.value.source == FilePart(FirstFile(files)) && call.value.mode == Streaming)
            && (!HasFile(files) && Truthy(Get(fields, "url")) ==>
                  call.Some? && call.value.source == RemoteUrl(Get(fields, "url")) && call.value.mode == Direct)
            && (!HasFile(files) && !Truthy(Get(fields, "url")) && WellFormedDataUrl(Get(fields, "dataUrl")) ==>
                  call.Some? && call.value.source.InlineData? && call.value.mode == Streaming)
            && (call.Some? ==> call.value.options == OptionsFor(build, fields, env) && call.value.options.folder == "media")
  {
  }

  /** A store failure after a streamed upload escapes the callback and leaves the request
      unanswered; after a URL upload it is caught and answered with 500. Neither leaves a record. */
  lemma StoreFailureAfterUpload(choice: Choice, opts: Options, userId: JsValue, r: UploadResult, m: string)
    requires choice.Use?
    ensures var out := Ingest(choice, opts, userId, Uploaded(r), WriteThrew(m));
            && out.created.None?
            && (choice.source.RemoteUrl? ==> out.reply == Sent(500, None, Error(MessageOr(m, UrlFailed))))
            && (!choice.source.RemoteUrl? ==> out.reply == Unanswered)
  {
  }

  /** The two builds answer every request identically and make the same provider call, except
      for the options they pass. */
  lemma BuildsDifferOnlyInOptions(req: MediaRequest, env: JsValue, verify: string -> Verdict,
                                  form: Form, provider: Upload, store: Write, listing: Query<MediaRecord>)
    ensures var a := Handle(SourceBuild, req, env, verify, form, provider, store, listing);
            var b := Handle(DistBuild, req, env, verify, form, provider, store, listing);
            && a.reply == b.reply
            && a.trace.created == b.trace.created
            && a.trace.call.Some? == b.trace.call.Some?
            && (a.trace.call.Some? ==> a.trace.call.value.source == b.trace.call.value.source
                                       && a.trace.call.value.mode == b.trace.call.value.mode)
  {
  }

  /** The builds pass the same options whenever `upload_preset` is absent or a non-empty string
      and `resource_type` is absent or one of the allowed strings. */
  lemma BuildsAgreeOnPlainFields(fields: map<string, JsValue>, env: JsValue)
    requires Get(fields, "upload_preset") == Undefined
             || (Get(fields, "upload_preset").Str? && Get(fields, "upload_preset").s != "")
    requires Get(fields, "resource_type") == Undefined || Includes(ValidResourceTypes, Get(fields, "resource_type"))
    ensures SourceOptions(fields, env) == DistOptions(fields, env)
  {
  }

  /** `resource_type` in the compiled build: "bogus" and "" become "auto", "video" passes, an
      array contributes its first element. The source build passes "bogus" on unchecked. */
  lemma ResourceTypeCoercion(env: JsValue)
    ensures DistOptions(map["resource_type" := Str("bogus")], env).resourceType == Str("auto")
    ensures DistOptions(map["resource_type" := Str("")], env).resourceType == Str("auto")
    ensures DistOptions(map["resource_type" := Str("video")], env).resourceType == Str("video")
    ensures DistOptions(map["resource_type" := Arr([Str("image"), Str("raw")])], env).resourceType == Str("image")
    ensures DistOptions(map["resource_type" := Arr([])], env).resourceType == Str("auto")
    ensures SourceOptions(map["resource_type" := Str("bogus")], env).resourceType == Str("bogus")
    ensures SourceOptions(map["resource_type" := Str("")], env).resourceType == Str("auto")
  {
  }

  /** An empty `upload_preset` field: the source build falls back to the environment default,
      the compiled build (`??`) keeps the empty string and so sends no preset at all. */
  lemma EmptyPresetField(p: string)
    requires p != ""
    ensures SourceOptions(map["upload_preset" := Str("")], Str(p)).uploadPreset == Str(p)
    ensures DistOptions(map["upload_preset" := Str("")], Str(p)).uploadPreset == Undefined
  {
  }

  /** The scenario's `dataUrl` carries the payload "AAAA". */
  lemma InlinePayload()
    ensures ReadDataUrl(Str("data:image/png;base64,AAAA")) == Payload("AAAA")
  {
    var mime := "data:image/png;base64";
    var s := mime + [','] + "AAAA" + "";
    assert s == "data:image/png;base64,AAAA";
    assert ',' !in mime;
    SplitOfShape(mime, "AAAA", "", ',');
    assert StartsWith(s, "data:");
    assert WellFormedDataUrl(Str(s));
  }

  lemma InlineSourceChosen()
    ensures ChooseSource(map["dataUrl" := Str("data:image/png;base64,AAAA")], map[]) == Use(InlineData("AAAA"))
  {
    var fields := map["dataUrl" := Str("data:image/png;base64,AAAA")];
    InlinePayload();
    assert !HasFile(map[]);
    assert Get(fields, "url") == Undefined;
    assert Get(fields, "dataUrl") == Str("data:image/png;base64,AAAA");
  }

  /** The end-to-end inline scenario: `dataUrl: "data:image/png;base64,AAAA"` with a valid
      token and a provider that reports `https://x/y.png` gives 201 with that URL and public id,
      created by the token's subject, after streaming the payload "AAAA". */
  lemma InlineUploadScenario(build: Build, headers: map<string, string>, verify: string -> Verdict,
                             env: JsValue, listing: Query<MediaRecord>)
    requires GetBearer(headers).Some? && verify(GetBearer(headers).value).Valid?
    ensures var r := UploadResult("https://x/y.png", "abc123", "image", "png", 4);
            var sub := Get(verify(GetBearer(headers).value).payload, "sub");
            var h := Handle(build, MediaRequest(Str("POST"), headers), env, verify,
                            Parsed(map["dataUrl" := Str("data:image/png;base64,AAAA")], map[]),
                            Uploaded(r), Written, listing);
            && h.trace.call.Some? && h.trace.call.value.source == InlineData("AAAA")
            && h.trace.call.value.mode == Streaming
            && h.reply == Sent(201, None, Data(Created(MediaRecord("https://x/y.png", "abc123", "image", "png", 4, sub), r)))
  {
    var r := UploadResult("https://x/y.png", "abc123", "image", "png", 4);
    var sub := Get(verify(GetBearer(headers).value).payload, "sub");
    var fields := map["dataUrl" := Str("data:image/png;base64,AAAA")];
    InlineSourceChosen();
    assert RequireAuth(headers, verify) == Admitted(sub);
    var out := Ingest(Use(InlineData("AAAA")), OptionsFor(build, fields, env), sub, Uploaded(r), Written);
    assert out.created == Some(RecordOf(r, sub));
    assert Handle(build, MediaRequest(Str("POST"), headers), env, verify, Parsed(fields, map[]), Uploaded(r), Written, listing)
           == Handled(out.reply, Trace(true, true, out.call, out.created));
  }
}

=== FILE: media_routes.dfy ===
/** The media router (`routes/media.routes.js`): an upload route like the server's own, the
    trending listing's parameters, and the view counter of `GET /:id`. The router's
    `authMiddleware` comes from `middlewares/authMiddleware`, which is not part of this model:
    the upload route starts from the payload it leaves in `req.user`. */
module MediaRoutes {
  import opened Js
  import opened Oracles
  import opened Http
  import opened Express

  // ---------------------------------------------------------------------------
  // POST /
  // ---------------------------------------------------------------------------

  /** `upload_stream` options: no preset here, `resource_type` always "auto". */
  datatype StreamCall = StreamCall(folder: string, resourceType: string)

  datatype RoutedMedia = RoutedMedia(
    title: JsValue,
    description: JsValue,
    hashtags: seq<string>,
    kind: JsValue,
    username: JsValue,
    mediaUrl: string,
    publicId: string,
    createdBy: JsValue,
    views: int,
    likes: int,
    comments: int)

  /** `saved` is the document handed to `media.save()`, whether or not the write succeeds. */
  datatype UploadTrace = UploadTrace(call: Option<StreamCall>, saved: Option<RoutedMedia>)

  datatype UploadHandled = UploadHandled(reply: Reply<RoutedMedia>, trace: UploadTrace)

  /** `router.post("/", authMiddleware, upload.single('file'), handler)` after the middleware
      set `req.user` to `user`. */
  function UploadMedia(user: map<string, JsValue>, fields: map<string, JsValue>, file: JsValue,
                       provider: Upload, store: Write): (h: UploadHandled)
    ensures h.trace.call.Some? <==> Truthy(file)
    ensures !Truthy(file) ==> h.reply == Sent(400, None, Error(NoFileUploaded))
    ensures h.trace.call.Some? ==>
              h.trace.call.value == StreamCall(UploadFolder(Get(user, "username"), Get(fields, "type")), "auto")
    ensures h.trace.saved.Some? <==>
              Truthy(file) && provider.Uploaded? && Hashtags(Get(fields, "hashtags")).Some?
    ensures h.trace.saved.Some? ==>
              var m := h.trace.saved.value;
              && m.mediaUrl == provider.result.secureUrl && m.publicId == provider.result.publicId
              && m.createdBy == Get(user, "id") && m.username == Get(user, "username")
              && m.hashtags == Hashtags(Get(fields, "hashtags")).value
              && m.views == 0 && m.likes == 0 && m.comments == 0
    ensures Truthy(file) && provider.UploadFailed? ==> h.reply == Sent(500, None, Error(provider.message))
    ensures h.reply.Sent? && h.reply.status == 200 <==> h.trace.saved.Some? && store.Written?
    ensures (h.trace.call.Some? && provider.Uploaded?
             && (Hashtags(Get(fields, "hashtags")).None? || store.WriteThrew?)) ==> h.reply.Unanswered?
  {
    if !Truthy(file) then UploadHandled(SendJson(400, Error(NoFileUploaded)), UploadTrace(None, None))
    else
      var username := Get(user, "username");
      var call := Some(StreamCall(UploadFolder(username, Get(fields, "type")), "auto"));
      match provider
      case UploadFailed(m) => UploadHandled(SendJson(500, Error(m)), UploadTrace(call, None))
      case Uploaded(r) =>
        match Hashtags(Get(fields, "hashtags"))
        case None => UploadHandled(Unanswered, UploadTrace(call, None))
        case Some(tags) =>
          var media := RoutedMedia(Get(fields, "title"), Get(fields, "description"), tags, Get(fields, "type"),
                                   username, r.secureUrl, r.publicId, Get(user, "id"), 0, 0, 0);
          match store
          case Written => UploadHandled(SendJson(200, Data(media)), UploadTrace(call, Some(media)))
          case WriteThrew(_) => UploadHandled(Unanswered, UploadTrace(call, Some(media)))
  }

  /** The record's owner is the caller: two callers with the same token payload but different
      form fields get records with the same `createdBy` and `username`. */
  lemma CreatorIsCaller(user: map<string, JsValue>, f1: map<string, JsValue>, f2: map<string, JsValue>,
                        file: JsValue, r: UploadResult, store: Write)
    requires Truthy(file) && Hashtags(Get(f1, "hashtags")).Some? && Hashtags(Get(f2, "hashtags")).Some?
    ensures var a := UploadMedia(user, f1, file, Uploaded(r), store).trace.saved;
            var b := UploadMedia(user, f2, file, Uploaded(r), store).trace.saved;
            && a.Some? && b.Some?
            && a.value.createdBy == b.value.createdBy == Get(user, "id")
            && a.value.username == b.value.username
            && a.value.publicId == b.value.publicId == r.publicId
  {
  }

  // ---------------------------------------------------------------------------
  // GET /trending
  // ---------------------------------------------------------------------------

  /** What the trending route asks the store for: sort on `sortKey` descending, at most
      `Number(limit)` documents. */
  datatype TrendingQuery = TrendingQuery(sortKey: string, descending: bool, limit: JsValue)

  /** `const { orderBy = 'views', limit = 10 } = req.query`, then `sort({[orderBy]: -1})` and
      `limit(Number(limit))`. */
  function Trending(query: map<string, JsValue>): (q: TrendingQuery)
    ensures q.descending
    ensures "orderBy" !in query ==> q.sortKey == "views"
    ensures "limit" !in query ==> q.limit == Num(10)
    ensures "orderBy" in query && query["orderBy"].Str? ==> q.sortKey == query["orderBy"].s
    ensures "limit" in query && !query["limit"].Undefined? ==> q.limit == query["limit"]
  {
    TrendingQuery(Display(Default(Get(query, "orderBy"), Str("views"))), true,
                  Default(Get(query, "limit"), Num(10)))
  }

  /** Destructuring defaults replace only missing parameters, for every query: a given value
      is kept even when it is falsy, which is exactly where `||` would have fallen back to
      "views" and 10 instead. */
  lemma TrendingDefaultsOnlyWhenMissing(query: map<string, JsValue>)
    ensures Get(query, "orderBy").Undefined? ==> Trending(query).sortKey == "views"
    ensures !Get(query, "orderBy").Undefined? ==> Trending(query).sortKey == Display(Get(query, "orderBy"))
    ensures Get(query, "limit").Undefined? ==> Trending(query).limit == Num(10)
    ensures !Get(query, "limit").Undefined? ==> Trending(query).limit == Get(query, "limit")
    ensures Trending(query).limit != Or(Get(query, "limit"), Num(10)) <==>
              !Truthy(Get(query, "limit")) && !Get(query, "limit").Undefined?
    ensures Trending(query).sortKey != Display(Or(Get(query, "orderBy"), Str("views"))) <==>
              !Truthy(Get(query, "orderBy")) && !Get(query, "orderBy").Undefined?
  {
  }

  // ---------------------------------------------------------------------------
  // GET /:id
  // ---------------------------------------------------------------------------

  /** A stored media document: its view counter and everything else. */
  datatype StoredMedia = StoredMedia(views: int, rest: map<string, JsValue>)

  const MediaNotFound: string := "Media no encontrada"

  datatype ViewHandled = ViewHandled(reply: Reply<StoredMedia>, saved: Option<StoredMedia>)

  /** `router.get("/:id", handler)`: `lookup` is `Media.findById`, `store` what `media.save()`
      observes. */
  function ViewMedia(lookup: Lookup<StoredMedia>, store: Write): (h: ViewHandled)
    ensures h.reply.Sent?
    ensures h.saved.Some? <==> lookup.Found?
    ensures h.saved.Some? ==> h.saved.value.views == lookup.doc.views + 1 && h.saved.value.rest == lookup.doc.rest
    ensures lookup.NotFound? ==> h.reply == Sent(404, None, Error(MediaNotFound))
    ensures h.reply.status == 200 <==> lookup.Found? && store.Written?
    ensures h.reply.status == 200 ==> h.reply.body == Data(h.saved.value)
    ensures h.reply.status == 500 ==> h.reply.body.Error?
    ensures h.reply.status == 500 <==> lookup.LookupThrew? || (lookup.Found? && store.WriteThrew?)
    ensures lookup.LookupThrew? ==> h.reply == Sent(500, None, Error(lookup.message))
    ensures lookup.Found? && store.WriteThrew? ==> h.reply == Sent(500, None, Error(store.message))
  {
    match lookup
    case NotFound => ViewHandled(SendJson(404, Error(MediaNotFound)), None)
    case LookupThrew(m) => ViewHandled(SendJson(500, Error(m)), None)
    case Found(media) =>
      var viewed := media.(views := media.views + 1);
      match store
      case Written => ViewHandled(SendJson(200, Data(viewed)), Some(viewed))
      case WriteThrew(m) => ViewHandled(SendJson(500, Error(m)), Some(viewed))
  }

  /** Each successful view adds exactly one: viewing the saved document again adds one more. */
  lemma ViewsCountEachRequest(media: StoredMedia)
    ensures var once := ViewMedia(Found(media), Written).saved.value;
            var twice := ViewMedia(Found(once), Written).saved.value;
            twice == media.(views := media.views + 2)
  {
  }
}

=== FILE: oracles.dfy ===
/** Outcomes of the libraries the handlers call and the model does not look into: the token
    verifier (jsonwebtoken), document lookups and writes (Mongoose), the media provider
    (Cloudinary) and the password comparison (bcrypt). Each handler receives the outcome it
    would observe as a parameter. */
module Oracles {
  import opened Js

  /** `jwt.verify(token, secret)`: the decoded payload object, or a thrown error. */
  datatype Verdict = Valid(payload: map<string, JsValue>) | Invalid

  /** `findOne` / `findById`: a document, `null`, or a rejected promise. */
  datatype Lookup<+T> = Found(doc: T) | NotFound | LookupThrew(message: string)

  /** `find()` with its `sort` and `lean`: the matching documents, or a rejected promise. */
  datatype Query<+T> = Listed(items: seq<T>) | QueryThrew(message: string)

  /** `save()` / `create()`: acknowledged, or a rejected promise. */
  datatype Write = Written | WriteThrew(message: string)

  /** `comparePassword` / `bcrypt.compare`. */
  datatype Comparison = PwMatch | PwMismatch | CompareThrew(message: string)

  /** The provider's upload result fields the handlers read. */
  datatype UploadResult = UploadResult(
    secureUrl: string,
    publicId: string,
    resourceType: string,
    format: string,
    bytes: int)

  /** What the provider reports for one upload: a result, or an error (its `message`, possibly
      empty). A callback with neither error nor result is reported as `UploadFailed("")`. */
  datatype Upload = Uploaded(result: UploadResult) | UploadFailed(message: string)
}

=== FILE: profile_api.dfy ===
/** The profile endpoint (`api/user/profile.ts` and its compiled variant
    `dist/api/user/profile.js`, which checks the stored `_id` before using it). */
module ProfileApi {
  import opened Js
  import opened Oracles
  import opened Http
  import opened AuthGuard
  import opened Users

  const UserNotFound: string := "Usuario no encontrado"
  const InvalidUserId: string := "ID de usuario inválido"

  /** `{id, username, email}` */
  datatype Profile = Profile(id: JsValue, username: JsValue, email: JsValue)

  /** The id the lookup was made with, if one was made. */
  datatype ProfileHandled = ProfileHandled(reply: Reply<Profile>, lookedUp: Option<JsValue>)

  /** The compiled build's `_id` check: a string is used as is, an object (arrays included) is
      converted with `toString()`, anything else is refused. */
  function CheckedId(id: JsValue): (r: Option<string>)
    ensures r.Some? <==> id.Str? || id.Obj? || id.Arr?
    ensures id.Str? ==> r == Some(id.s)
    ensures r.Some? ==> r == ToStringOf(id)
  {
    match id
    case Str(s) => Some(s)
    case Obj(_) => Some(Display(id))
    case Arr(_) => Some(Display(id))
    case _ => None
  }

  /** `handler(req, res)` after `dbConnect()`: `lookup` is `User.findById(auth.userId).lean()`,
      awaited without a `try`, so a rejected lookup leaves the request unanswered. */
  function GetProfile(build: Build, verb: JsValue, headers: map<string, string>, verify: string -> Verdict,
                      lookup: Lookup<UserDoc>): (h: ProfileHandled)
    ensures MethodGuard<Profile>(verb, ["GET"]).Some? ==>
              h == ProfileHandled(MethodGuard<Profile>(verb, ["GET"]).value, None)
    ensures h.lookedUp.Some? <==> MethodGuard<Profile>(verb, ["GET"]).None? && RequireAuth(headers, verify).Admitted?
    ensures h.lookedUp.Some? ==> h.lookedUp.value == RequireAuth(headers, verify).userId
    ensures MethodGuard<Profile>(verb, ["GET"]).None? && RequireAuth(headers, verify).Denied? ==>
              h.reply == Sent(401, None, Error(RequireAuth(headers, verify).message))
    ensures h.lookedUp.Some? && lookup.NotFound? ==> h.reply == Sent(404, None, Error(UserNotFound))
    ensures h.lookedUp.Some? && lookup.LookupThrew? ==> h.reply == Unanswered
    ensures h.reply.Sent? && h.reply.status == 200 ==>
              lookup.Found? && h.reply.body.Data?
              && h.reply.body.value.username == lookup.doc.username
              && h.reply.body.value.email == lookup.doc.email
    ensures h.lookedUp.Some? && lookup.Found? && build == SourceBuild ==>
              h.reply == Sent(200, None, Data(Profile(lookup.doc.id, lookup.doc.username, lookup.doc.email)))
    ensures h.lookedUp.Some? && lookup.Found? && build == DistBuild ==>
              h.reply == (if CheckedId(lookup.doc.id).Some?
                          then Sent(200, None, Data(Profile(Str(CheckedId(lookup.doc.id).value),
                                                            lookup.doc.username, lookup.doc.email)))
                          else Sent(500, None, Error(InvalidUserId)))
  {
    match MethodGuard<Profile>(verb, ["GET"])
    case Some(r) => ProfileHandled(r, None)
    case None =>
      match RequireAuth(headers, verify)
      case Denied(status, message) => ProfileHandled(SendJson(status, Error(message)), None)
      case Admitted(userId) =>
        var reply :=
          match lookup
          case LookupThrew(_) => Unanswered
          case NotFound => SendJson(404, Error(UserNotFound))
          case Found(user) =>
            if build == SourceBuild then SendJson(200, Data(Profile(user.id, user.username, user.email)))
            else
              match CheckedId(user.id)
              case None => SendJson(500, Error(InvalidUserId))
              case Some(id) => SendJson(200, Data(Profile(Str(id), user.username, user.email)));
        ProfileHandled(reply, Some(userId))
  }

  /** The stored password hash never reaches the reply. */
  lemma ProfileHidesPassword(build: Build, verb: JsValue, headers: map<string, string>, verify: string -> Verdict,
                             user: UserDoc, hash: JsValue)
    ensures GetProfile(build, verb, headers, verify, Found(user))
            == GetProfile(build, verb, headers, verify, Found(user.(passwordHash := hash)))
  {
  }

  /** The builds agree whenever the stored `_id` is a string. */
  lemma BuildsAgreeOnStringIds(verb: JsValue, headers: map<string, string>, verify: string -> Verdict,
                               lookup: Lookup<UserDoc>)
    requires lookup.Found? ==> lookup.doc.id.Str?
    ensures GetProfile(SourceBuild, verb, headers, verify, lookup) == GetProfile(DistBuild, verb, headers, verify, lookup)
  {
  }

  /** An `_id` that is neither a string nor an object is answered 200 by the source build and
      refused with 500 by the compiled one. */
  lemma NumericIdRefusedByDist(verb: JsValue, headers: map<string, string>, verify: string -> Verdict,
                               user: UserDoc, n: int)
    requires verb == Str("GET") && RequireAuth(headers, verify).Admitted?
    ensures GetProfile(SourceBuild, verb, headers, verify, Found(user.(id := Num(n)))).reply.status == 200
    ensures GetProfile(DistBuild, verb, headers, verify, Found(user.(id := Num(n)))).reply
            == Sent(500, None, Error(InvalidUserId))
  {
  }
}

=== FILE: user_controller.dfy ===
/** The Express user controller (`controllers/userController.js`). Unlike the serverless
    handlers it answers bad credentials with 400 and hides every caught error behind a fixed
    message per operation. */
module UserController {
  import opened Js
  import opened Oracles
  import opened Http
  import opened Users

  const FieldsRequired: string := "Todos los campos son requeridos"
  const EmailRegistered: string := "El email ya está registrado"
  const UserRegistered: string := "Usuario registrado correctamente"
  const RegisterFailed: string := "Error registrando usuario"
  const CredentialsRequired: string := "Email y contraseña son requeridos"
  const InvalidCredentials: string := "Credenciales inválidas"
  const LoginSucceeded: string := "Login exitoso"
  const LoginFailed: string := "Error en login"
  const UserNotFound: string := "Usuario no encontrado"
  const LookupFailed: string := "Error obteniendo usuario"

  /** The fields `findById(id, 'username email photoURL role createdAt updatedAt')` selects,
      besides `_id`, which a projection keeps unless excluded. */
  const SelectedFields: seq<string> := ["username", "email", "photoURL", "role", "createdAt", "updatedAt"]

  /** The response payloads. */
  datatype Payload =
    | Message(message: string)
    | LoggedIn(message: string, token: Token, user: PublicUser)
    | FoundUser(record: map<string, JsValue>)

  // ---------------------------------------------------------------------------
  // getUserById
  // ---------------------------------------------------------------------------

  /** The projection applied to a stored document. */
  function Project(doc: map<string, JsValue>): (r: map<string, JsValue>)
    ensures forall k :: k in r <==> k in doc && (k == "_id" || k in SelectedFields)
    ensures forall k :: k in r ==> r[k] == doc[k]
  {
    map k | k in doc && (k == "_id" || k in SelectedFields) :: doc[k]
  }

  /** `getUserById(req, res)`: `lookup` is the stored document `findById` finds for `req.params.id`. */
  function GetUserById(lookup: Lookup<map<string, JsValue>>): (r: Reply<Payload>)
    ensures r.Sent?
    ensures r.status == 404 <==> lookup.NotFound?
    ensures r.status == 404 ==> r.body == Error(UserNotFound)
    ensures r.status == 200 <==> lookup.Found?
    ensures r.status == 200 ==> r.body == Data(FoundUser(Project(lookup.doc)))
    ensures r.status == 500 <==> lookup.LookupThrew?
    ensures r.status == 500 ==> r.body == Error(LookupFailed)
  {
    match lookup
    case NotFound => SendJson(404, Error(UserNotFound))
    case Found(doc) => SendJson(200, Data(FoundUser(Project(doc))))
    case LookupThrew(_) => SendJson(500, Error(LookupFailed))
  }

  /** The stored password never leaves through this endpoint. */
  lemma ProfileOmitsPassword(doc: map<string, JsValue>)
    ensures var r := GetUserById(Found(doc));
            r.body.Data? && r.body.value.FoundUser? && "password" !in r.body.value.record
  {
    assert "password" !in SelectedFields;
  }

  // ---------------------------------------------------------------------------
  // registerUser
  // ---------------------------------------------------------------------------

  /** `bcrypt.hash(password, 10)`: the digest, or a rejection. */
  datatype Hashing = Hashed(digest: string) | HashThrew(message: string)

  /** The user `registerUser` saves: the password only as its digest. */
  datatype NewUser = NewUser(username: JsValue, email: JsValue, passwordDigest: string)

  datatype RegisterHandled = RegisterHandled(reply: Reply<Payload>, saved: Option<NewUser>)

  predicate RegisterFieldsPresent(body: map<string, JsValue>) {
    Truthy(Get(body, "username")) && Truthy(Get(body, "email")) && Truthy(Get(body, "password"))
  }

  /** `registerUser(req, res)`. `body` is `req.body` (`None` when it is absent, where the
      destructuring throws), `existing` is `User.findOne({email})`, `hash` the digest bcrypt
      produces, `store` what `save()` observes. */
  function RegisterUser(body: Option<map<string, JsValue>>, existing: Lookup<UserDoc>, hash: Hashing, store: Write)
    : (h: RegisterHandled)
    ensures h.reply.Sent?
    ensures h.reply.status == 400 && h.reply.body == Error(FieldsRequired) <==>
              body.Some? && !RegisterFieldsPresent(body.value)
    ensures h.reply.status == 400 && h.reply.body == Error(EmailRegistered) <==>
              body.Some? && RegisterFieldsPresent(body.value) && existing.Found?
    ensures h.saved.Some? <==> body.Some? && RegisterFieldsPresent(body.value) && existing.NotFound? && hash.Hashed?
    ensures h.saved.Some? ==>
              h.saved.value == NewUser(Get(body.value, "username"), Get(body.value, "email"), hash.digest)
    ensures h.reply.status == 201 <==> h.saved.Some? && store.Written?
    ensures h.reply.status == 201 ==> h.reply.body == Data(Message(UserRegistered))
    ensures h.reply.status == 500 ==> h.reply.body == Error(RegisterFailed)
    ensures h.reply.status == 500 <==>
              body.None?
              || (RegisterFieldsPresent(body.value)
                  && (existing.LookupThrew? || (existing.NotFound? && (hash.HashThrew? || store.WriteThrew?))))
    ensures h.reply.status in {201, 400, 500}
  {
    match body
    case None => RegisterHandled(SendJson(500, Error(RegisterFailed)), None)
    case Some(fields) =>
      if !RegisterFieldsPresent(fields) then RegisterHandled(SendJson(400, Error(FieldsRequired)), None)
      else
        match existing
        case LookupThrew(_) => RegisterHandled(SendJson(500, Error(RegisterFailed)), None)
        case Found(_) => RegisterHandled(SendJson(400, Error(EmailRegistered)), None)
        case NotFound =>
          match hash
          case HashThrew(_) => RegisterHandled(SendJson(500, Error(RegisterFailed)), None)
          case Hashed(digest) =>
            var user := NewUser(Get(fields, "username"), Get(fields, "email"), digest);
            match store
            case Written => RegisterHandled(SendJson(201, Data(Message(UserRegistered))), Some(user))
            case WriteThrew(_) => RegisterHandled(SendJson(500, Error(RegisterFailed)), Some(user))
  }

  /** A registered email is refused without hashing or saving, whatever the hasher and the
      store would do. */
  lemma DuplicateEmailNotSaved(fields: map<string, JsValue>, user: UserDoc, h1: Hashing, h2: Hashing,
                               s1: Write, s2: Write)
    requires RegisterFieldsPresent(fields)
    ensures RegisterUser(Some(fields), Found(user), h1, s1) == RegisterUser(Some(fields), Found(user), h2, s2)
            == RegisterHandled(Sent(400, None, Error(EmailRegistered)), None)
  {
  }

  // ---------------------------------------------------------------------------
  // loginUser
  // ---------------------------------------------------------------------------

  predicate LoginFieldsPresent(body: map<string, JsValue>) {
    Truthy(Get(body, "email")) && Truthy(Get(body, "password"))
  }

  /** `loginUser(req, res)`. `lookup` is `User.findOne({email})`, `compare` is
      `bcrypt.compare(password, user.password)`. The token carries the stored id and email. */
  function LoginUser(body: Option<map<string, JsValue>>, lookup: Lookup<UserDoc>, compare: Comparison)
    : (r: Reply<Payload>)
    ensures r.Sent?
    ensures r.status == 400 && r.body == Error(CredentialsRequired) <==> body.Some? && !LoginFieldsPresent(body.value)
    ensures r.status == 400 && r.body == Error(InvalidCredentials) <==>
              body.Some? && LoginFieldsPresent(body.value)
              && (lookup.NotFound? || (lookup.Found? && compare.PwMismatch?))
    ensures r.status == 200 <==> body.Some? && LoginFieldsPresent(body.value) && lookup.Found? && compare.PwMatch?
    ensures r.status == 200 ==>
              r.body == Data(LoggedIn(LoginSucceeded,
                                      Signed(map["id" := lookup.doc.id, "email" := lookup.doc.email], SessionLifetime),
                                      PublicUser(lookup.doc.id, lookup.doc.username, lookup.doc.email)))
    ensures r.status == 500 ==> r.body == Error(LoginFailed)
    ensures r.status == 500 <==>
              body.None?
              || (LoginFieldsPresent(body.value) && (lookup.LookupThrew? || (lookup.Found? && compare.CompareThrew?)))
    ensures r.status in {200, 400, 500}
  {
    match body
    case None => SendJson(500, Error(LoginFailed))
    case Some(fields) =>
      if !LoginFieldsPresent(fields) then SendJson(400, Error(CredentialsRequired))
      else
        match lookup
        case LookupThrew(_) => SendJson(500, Error(LoginFailed))
        case NotFound => SendJson(400, Error(InvalidCredentials))
        case Found(user) =>
          match compare
          case CompareThrew(_) => SendJson(500, Error(LoginFailed))
          case PwMismatch => SendJson(400, Error(InvalidCredentials))
          case PwMatch =>
            var token := Signed(map["id" := user.id, "email" := user.email], SessionLifetime);
            SendJson(200, Data(LoggedIn(LoginSucceeded, token, PublicUser(user.id, user.username, user.email))))
  }

  /** An unknown email and a wrong password are indistinguishable. */
  lemma UnknownUserLikeWrongPassword(body: Option<map<string, JsValue>>, user: UserDoc, compare: Comparison)
    ensures LoginUser(body, NotFound, compare) == LoginUser(body, Found(user), PwMismatch)
  {
  }

  /** The request's password and the stored hash reach the reply only through the comparison. */
  lemma LoginPasswordNonInterference(fields: map<string, JsValue>, p1: JsValue, p2: JsValue, user: UserDoc,
                                     hash: JsValue, compare: Comparison)
    requires Truthy(p1) == Truthy(p2)
    ensures LoginUser(Some(fields["password" := p1]), Found(user), compare)
            == LoginUser(Some(fields["password" := p2]), Found(user.(passwordHash := hash)), compare)
  {
    assert Get(fields["password" := p1], "email") == Get(fields["password" := p2], "email");
  }

  /** Caught errors never reveal their cause: every thrown message gives the same reply. */
  lemma ErrorsAreGeneric(body: Option<map<string, JsValue>>, user: UserDoc, m1: string, m2: string,
                         fields: map<string, JsValue>, digest: Hashing)
    ensures LoginUser(body, LookupThrew(m1), PwMatch) == LoginUser(body, LookupThrew(m2), PwMatch)
    ensures LoginUser(body, Found(user), CompareThrew(m1)) == LoginUser(body, Found(user), CompareThrew(m2))
    ensures RegisterUser(body, LookupThrew(m1), digest, Written) == RegisterUser(body, LookupThrew(m2), digest, Written)
    ensures RegisterUser(body, NotFound, HashThrew(m1), Written) == RegisterUser(body, NotFound, HashThrew(m2), Written)
    ensures RegisterUser(body, NotFound, digest, WriteThrew(m1)).reply == RegisterUser(body, NotFound, digest, WriteThrew(m2)).reply
    ensures GetUserById(LookupThrew(m1)) == GetUserById(LookupThrew(m2))
  {
  }
}

=== FILE: users.dfy ===
/** The user documents and session payloads the authentication handlers exchange. */
module Users {
  import opened Js

  /** A stored `User` as the handlers read it; `passwordHash` is the bcrypt hash in `password`. */
  datatype UserDoc = UserDoc(id: JsValue, username: JsValue, email: JsValue, passwordHash: JsValue)

  /** The `user` object a response carries: never a password field. */
  datatype PublicUser = PublicUser(id: JsValue, username: JsValue, email: JsValue)

  /** The string `jwt.sign(claims, secret, {expiresIn})` returns, kept as its inputs; the
      secret and the signature are not modelled. */
  datatype Token = Signed(claims: map<string, JsValue>, expiresIn: string)

  const SessionLifetime: string := "7d"

  /** `v.toString()`: the value's string form, or `None` where it throws (on `null` and
      `undefined`). */
  function ToStringOf(v: JsValue): (r: Option<string>)
    ensures r.None? <==> Nullish(v)
    ensures v.Str? ==> r == Some(v.s)
  {
    if Nullish(v) then None else Some(Display(v))
  }

  /** The message of the TypeError `v.toString()` throws on a nullish `v`. */
  function ToStringError(v: JsValue): string {
    "Cannot read properties of " + Display(v) + " (reading 'toString')"
  }
}
